=== FILE: README.md ===
# fundgrube-notify, modelled in Dafny

`fundgrube.py` polls the MediaMarkt and Saturn clearance listings ("Fundgrube")
for every configured search filter. It keeps the postings whose id is not yet in
the results file `old_results.csv`, appends those to the file and mails them.
A one-line marker file, `data/previous_error.txt`, records the last error that
was mailed, so the same error is not mailed twice.

This project models that logic as pure functions over immutable data:

- `Postings` (`postings.dfy`): the `Posting` record built from one API entry, its direct URL and its one-line summary.
- `Filters` (`filters.dfy`): `GameFilter` construction from the configuration items, and the per-filter listing query URL.
- `Quoting` (`quoting.dfy`): `urllib.parse.quote(s, safe='')`. The text is UTF-8 encoded, then percent-encoded as in RFC 3986 (sections 2.1 and 2.3). An inverse `Unquote` states the round trip.
- `Urls` (`urls.dfy`): a reader that splits a URL into its path and query parameters. The URL builders are checked against it.
- `History` (`history.dfy`): the results file as rows of cells. `Load` follows `csv.DictReader` (duplicate column names, short rows, blank rows). `Save` is append-only.
- `Classifier` (`classifier.dfy`): the novelty loop of the main program, as a method with loop invariants. Its reference is a flat filter over all fetched postings.
- `Notifier` (`notifier.dfy`): `mail_notify` as a state transition from (settings, marker, count, error) to (notice, new marker).
- `Runs` (`runs.dfy`): one end-to-end run of the main program.
- `Text`, `Decimal`, `Wrappers`: string joining and splitting, Python's `str()` of an integer, and `Option`/`Result`.

Input and output are parameters:

- the listing server is a function `fetch` from request URL to the postings it returns;
- the time of a save is the already formatted text `now`;
- `datetime.strptime` is a predicate `dateOk`;
- the environment variables are a `MailEnv` record;
- each file is `Option<...>` of its contents, with `None` when the file does not exist.

Facts about the code that shape the model:

- The code does not de-duplicate by posting id within a run. A new posting returned twice is saved and mailed twice (`Classifier.NewIdsKeepDuplicates`).
- With mail configured (`MAIL_SENDER` and `MAIL_PASSWORD` both set), `mail_notify` crashes when it is called with no error, nothing new and no marker file (see Findings). The main program never makes that call.
- The main program never passes an error to `mail_notify`. A bad filter item or an unreadable results file ends the run with an exception, which `Runs.Run` reports as `Crashed`. A failing fetch also ends the run, but the model's `fetch` cannot fail (see Left out). The error branch of the notifier is still modelled in full.
- An unreadable results file raises the `KeyError`, `TypeError` or `ValueError` that reading the row raises (`History.LoadError`).

## Model

| member | source | states |
|---|---|---|
| Postings.MakePosting | fundgrube.py:25-38 | the posting keeps all of the entry's fields (ids, name, URLs, text, price, shipping, discount) and the endpoint; its outlet id is present exactly when the outlet object is truthy and has an `id` field, and then equals it |
| Postings.DirectUrlParams | fundgrube.py:40-41 | read back, for an outlet id and product id without `&`, the direct URL's path is the endpoint, `outletIds` is the outlet id (or `None`) and `text` is the product id |
| Postings.Summary | fundgrube.py:43-44 | the summary is the name, ` - `, the price, ` (` with the package emoji and a space, the shipping cost, `) (`, the discount and ` %)`, each piece at its fixed offset, and nothing else |
| Filters.ParseFilter | fundgrube.py:47-58 | a configuration item gives a filter exactly when it has a string `include` and no `search`/`self` key (else KeyError/TypeError); search is `include`, price is `price` or None |
| Filters.LoadFilters | fundgrube.py:55-59 | all items are parsed in order into one filter each; the load fails exactly when some item fails, with the first failing item's error |
| Filters.QueryUrlParams | fundgrube.py:198-203 | read back, for a price whose text has no `&` (every integer price, `Filters.IntPriceHasNoAmpersand`), the query URL targets `<endpoint>/api/postings` with limit 32, offset 0, newest first, `recentFilter=text`, `text` = the quoted search, and a `priceMax` parameter exactly when the price is truthy, holding the price; the query has exactly five pieces, or six with `priceMax` |
| Filters.QueryUrlSearchRoundTrip | fundgrube.py:198-201 | for a price whose text has no `&`, the `text` parameter of the query URL decodes back to the filter's search text |
| Quoting.Quote | fundgrube.py:198 | quoted text consists only of RFC 3986 unreserved characters and `%` |
| Quoting.QuoteRoundTrip | fundgrube.py:198 | unquoting quoted text gives the original text back (UTF-8 and percent-encoding both invert) |
| Quoting.QuoteKeepsUnreserved | fundgrube.py:198 | text made of unreserved characters is not changed by quoting |
| History.Save | fundgrube.py:142-159 | saving appends: existing rows are unchanged, the header is written exactly when the file did not exist, then one `[now, id, name, price, direct url]` row per finding in order |
| History.Fold | fundgrube.py:134-139 | a successful load maps exactly the ids of the non-blank data rows, and every such row was readable |
| History.FoldOutcome | fundgrube.py:136-137 | the rows load exactly when every non-blank row has a `Date` cell that parses and an `Id` column; otherwise the error is the first failing row's |
| History.Load | fundgrube.py:128-139 | a file with at most a header row loads as empty; otherwise it loads exactly when every non-blank data row reads cleanly, and it maps exactly the `Id` cells of those rows |
| History.LoadFile | fundgrube.py:191-194 | a results file that does not exist loads as an empty history; an existing one is read with the reader |
| History.LaterRowWins | fundgrube.py:136-137 | an id is mapped to the date of the last row carrying it |
| History.LoadAfterSave | fundgrube.py:128-159 | loading after a save gives the old history plus every finding's id mapped to the save time, under the same header |
| History.SaveToEmptyFile | fundgrube.py:149-159 | an existing but empty file gets no header, so the first record becomes the header and the next load fails with a `KeyError` on `Date` |
| Classifier.RequestsOrder | fundgrube.py:197-203 | filter i is queried at position 2i on MediaMarkt and 2i+1 on Saturn, with that filter's query URL |
| Classifier.FetchOrder | fundgrube.py:197-212 | the fetched postings are in filter order, MediaMarkt before Saturn, then response order |
| Classifier.Classify | fundgrube.py:196-219 | the nested loops collect exactly the flat filter of all fetched postings whose id is not in the history, in fetch order |
| Classifier.NewOnlyCount | fundgrube.py:212-219 | a posting occurs among the findings as often as it was fetched if its id is new, and never otherwise |
| Classifier.NewIdsKeepDuplicates | fundgrube.py:191-219 | the history is not updated during the loop: a new id fetched k times is found k times |
| Classifier.NewOnlyComplete | fundgrube.py:216-219 | every fetched posting with a new id is a finding |
| Classifier.NewOnlyAppend | fundgrube.py:196-219 | classifying a concatenation classifies each part in turn, so discovery order is kept |
| Classifier.NewOnlyIdempotent | fundgrube.py:212-219 | classifying the findings again against the same history changes nothing |
| Classifier.NewOnlyAllKnown | fundgrube.py:216-219 | when every fetched id is already in the history there are no findings |
| Notifier.Compose | fundgrube.py:94-118 | the mail is from `Fundgrube Notifier <sender>`; it goes to `MAIL_RECEIVER` when set and to the sender otherwise; the subject gets the `Fundgrube: ` prefix exactly when sender and receiver are equal |
| Notifier.Deliver | fundgrube.py:97-108 | an error mail sets the marker to the error's class; otherwise new items mail `<n> new items` and keep the marker; otherwise "Error fixed" clears the marker, and a missing marker file makes it fail |
| Notifier.Notify | fundgrube.py:81-108 | no mail and no marker change without credentials, or with no new items and an error class equal to the stored marker (no error is `NoneType`); otherwise the branches above |
| Notifier.NotifyIntended | fundgrube.py:90-91 | as intended: silent exactly when not configured or nothing is new and the error kind equals the marker (no error matches no marker); never fails on the marker file |
| Notifier.NotifyRemovesMissingMarker | fundgrube.py:84-108 | configured, no new items, no error and no marker file: the code as written fails in `os.remove`, the intended version stays silent |
| Notifier.NotifyAgreesOnNewItems | fundgrube.py:222-226 | with new items and no error, as the main program calls it, both versions decide the same |
| Notifier.NoneTypeMarkerDiffers | fundgrube.py:84-108 | with a marker holding `NoneType`, no error and nothing new, the code as written is silent while the intended version mails "Error fixed" and clears the marker |
| Notifier.ErrorReportedOnce | fundgrube.py:84-108 | an error kind is mailed and recorded once, is silent when it repeats, and a clean run then mails "Error fixed" and clears the marker |
| Notifier.ItemsBodyListsEach | fundgrube.py:103 | the new-items mail contains every posting's summary with its direct URL |
| Runs.Run | fundgrube.py:187-226 | a run crashes on a bad filter item or results file; otherwise its findings are the new fetched postings, and only when there are some is the file appended and `mail_notify(len(findings), findings)` consulted, its notice being the run's; the marker is never changed |
| Runs.RunMailsFindings | fundgrube.py:222-226 | with mail configured, a run with findings sends the new-items mail to the configured receiver, with subject `<count> new items` and the findings listed |
| Runs.RunWithoutMailIsSilent | fundgrube.py:90 | without both mail credentials a run sends no mail, whatever it finds |
| Runs.RunRecordsFindings | fundgrube.py:191-224 | after a run the results file loads as the previous history plus the findings' ids at the run's time |
| Runs.SecondRunFindsNothing | fundgrube.py:191-226 | a second run over the same listings finds nothing, mails nothing and changes nothing |

## Left out

- Runs.Run: a failed request, a body that is not JSON, a missing `postings` key or a posting entry missing a constructor field (fundgrube.py:205-213) raises, ends the run and changes nothing. The model's `fetch` always answers, so `Run` never crashes on a fetch.
- Filters.QueryUrlParams, Filters.QueryUrlSearchRoundTrip, Postings.DirectUrlParams: the read-back is stated only for values whose text has no `&`. A string price such as `10&x=1` would add its own query parameter, which the source accepts.
- HTTP: `request_get`, its headers and the response are not modelled. The server's answer to each URL is the parameter `fetch`. So two identical requests in one run (two filters with the same text and price) get the same answer.
- JSON decoding: filters are maps of scalars and postings are already-decoded records. A missing `postings` key and non-object entries are not modelled. So is a posting entry whose `base_url` or `self` key would clash with a constructor argument.
- Floating-point numbers: configuration scalars are null, booleans, integers or strings. A decimal price such as `29.99` and how Python renders it are not modelled.
- Postings.MakePosting: scalar fields are kept as the text `str()` gives them. Posting ids are assumed to be JSON strings. The code looks up the raw JSON value in a map whose keys are the strings read back from the CSV (fundgrube.py:137, 216). So a numeric id would never match, and its posting would be saved and mailed again on every run. The model cannot express that, and `Runs.SecondRunFindsNothing` relies on this assumption. An outlet `id` of JSON `null` is not distinguished from a missing one.
- Filters.ParseFilter: a non-string `include` is rejected when the filters are loaded. The source rejects it later, inside `quote`. Nothing is persisted and no mail is sent before either point.
- CSV encoding and quoting: a row is its list of cells. `strptime` is the parameter `dateOk`, and `strftime` is the already formatted `now`. A date is kept as its text, not as a `datetime`.
- History.Fold: a row too short to have an `Id` cell gives Python the key `None`. The model drops that row. In the model a posting id is always text, so no posting could match that key.
- History.LoadAfterSave: stated for a file that does not exist yet or starts with the standard header. An existing empty file breaks it (`History.SaveToEmptyFile`). Rows appended to a file with another header are read under that header.
- Runs.RunRecordsFindings: stated only for a results file that is missing or starts with the standard header. From an existing empty file, the next load fails instead (`History.SaveToEmptyFile`).
- Runs.SecondRunFindsNothing: stated only for a results file that is missing or starts with the standard header. From an existing empty file, the second run raises `KeyError` on `Date` instead of finding nothing (`History.SaveToEmptyFile`).
- Quoting.Unquote: a strict inverse that rejects malformed escapes and non-ASCII input. It is not Python's lenient `unquote`. The main program never unquotes.
- Mail transport: `MIMEText`, the SMTP server and port, STARTTLS, login and send are not modelled. A failure while sending is not modelled either: the marker is already written when the error branch sends.
- Logging, `argparse`, `dotenv` and the process exit code are not modelled.
- Runs.Run: the main program never passes an error to `mail_notify`, so a run never changes the marker. Error handling across runs is stated on the notifier itself (`Notifier.ErrorReportedOnce`).

## Findings

| source | as written | input that shows it | evidently intended | confidence | as-written member | corrected member |
|---|---|---|---|---|---|---|
| fundgrube.py:90 | with no error, `error.__class__.__name__` is `'NoneType'`, which is never equal to a missing marker (`None`). So the mail condition holds and the "Error fixed" branch calls `os.remove` on a marker file that does not exist. | `MAIL_SENDER` and `MAIL_PASSWORD` set, `new_count = 0`, `error = None`, no `data/previous_error.txt` | no mail and no change: there is nothing new, no error and nothing to fix | high; not executed | Notifier.Notify | Notifier.NotifyIntended |

`Notifier.NotifyRemovesMissingMarker` shows the input on both versions. The corrected version also differs on one input no call produces: a marker file holding `NoneType` (`Notifier.NoneTypeMarkerDiffers`). Only a present error's class name is ever written. `Notifier.NotifyAgreesOnNewItems` shows that the main program's only call, with new items and no error, cannot hit the defect. `Runs.Run` uses the corrected version.

=== FILE: classifier.dfy ===
/**
 * The classification loop of the main program: for every filter, for the
 * MediaMarkt endpoint and then the Saturn endpoint, every returned posting
 * whose id is not in the loaded history is a finding.
 */
module Classifier {
  import opened Postings
  import opened Filters

  /** One listing request: the endpoint and the URL sent to it. */
  datatype Request = Request(base: string, url: string)

  /** The two requests made for one filter, MediaMarkt first. */
  function FilterRequests(f: Filter): seq<Request> {
    [Request(MediaMarkt, QueryUrl(f, MediaMarkt)), Request(Saturn, QueryUrl(f, Saturn))]
  }

  /** Every request of a run, in the order they are made. */
  function Requests(filters: seq<Filter>): (rs: seq<Request>)
    ensures |rs| == 2 * |filters|
    decreases |filters|
  {
    if |filters| == 0 then [] else Requests(filters[..|filters| - 1]) + FilterRequests(filters[|filters| - 1])
  }

  lemma RequestsSnoc(filters: seq<Filter>, i: int)
    requires 0 <= i < |filters|
    ensures Requests(filters[..i + 1]) == Requests(filters[..i]) + FilterRequests(filters[i])
  {
    assert filters[..i + 1][..i] == filters[..i];
  }

  /** Filter `i` is queried at positions `2i` (MediaMarkt) and `2i + 1` (Saturn). */
  lemma {:induction false} RequestsOrder(filters: seq<Filter>, i: int)
    requires 0 <= i < |filters|
    ensures Requests(filters)[2 * i] == Request(MediaMarkt, QueryUrl(filters[i], MediaMarkt))
    ensures Requests(filters)[2 * i + 1] == Request(Saturn, QueryUrl(filters[i], Saturn))
    decreases |filters|
  {
    var front := filters[..|filters| - 1];
    var rs := Requests(front);
    assert Requests(filters) == rs + FilterRequests(filters[|filters| - 1]);
    if i < |front| {
      RequestsOrder(front, i);
      assert front[i] == filters[i];
    }
  }

  /** The postings a request returns, tagged with the request's endpoint. */
  function Batch(r: Request, fetch: string -> seq<RawPosting>): (ps: seq<Posting>)
    ensures |ps| == |fetch(r.url)|
    ensures forall k :: 0 <= k < |ps| ==> ps[k] == MakePosting(fetch(r.url)[k], r.base)
  {
    var raw := fetch(r.url);
    seq(|raw|, k requires 0 <= k < |raw| => MakePosting(raw[k], r.base))
  }

  /** All postings fetched by a list of requests, in request order and then response order. */
  function Fetched(rs: seq<Request>, fetch: string -> seq<RawPosting>): seq<Posting>
    decreases |rs|
  {
    if |rs| == 0 then [] else Fetched(rs[..|rs| - 1], fetch) + Batch(rs[|rs| - 1], fetch)
  }

  /** The postings whose id the history does not hold, in their original order. */
  function NewOnly(ps: seq<Posting>, history: map<string, string>): (r: seq<Posting>)
    ensures |r| <= |ps|
    ensures forall i :: 0 <= i < |r| ==> r[i].postingId !in history
    decreases |ps|
  {
    if |ps| == 0 then []
    else
      var last := ps[|ps| - 1];
      NewOnly(ps[..|ps| - 1], history) + (if last.postingId in history then [] else [last])
  }

  lemma FetchedSnoc(rs: seq<Request>, r: Request, fetch: string -> seq<RawPosting>)
    ensures Fetched(rs + [r], fetch) == Fetched(rs, fetch) + Batch(r, fetch)
  {
    assert (rs + [r])[..|rs|] == rs;
  }

  lemma {:induction false} FetchedAppend(a: seq<Request>, b: seq<Request>, fetch: string -> seq<RawPosting>)
    ensures Fetched(a + b, fetch) == Fetched(a, fetch) + Fetched(b, fetch)
    decreases |b|
  {
    if |b| > 0 {
      var front := b[..|b| - 1];
      FetchedAppend(a, front, fetch);
      assert a + b == (a + front) + [b[|b| - 1]];
      FetchedSnoc(a + front, b[|b| - 1], fetch);
      assert b == front + [b[|b| - 1]];
      FetchedSnoc(front, b[|b| - 1], fetch);
    } else {
      assert a + b == a;
    }
  }

  /** Classifying a concatenation classifies each part: the order of discovery is kept. */
  lemma {:induction false} NewOnlyAppend(a: seq<Posting>, b: seq<Posting>, history: map<string, string>)
    ensures NewOnly(a + b, history) == NewOnly(a, history) + NewOnly(b, history)
    decreases |b|
  {
    if |b| > 0 {
      var front := b[..|b| - 1];
      NewOnlyAppend(a, front, history);
      assert (a + b)[..|a + b| - 1] == a + front;
      assert (a + b)[|a + b| - 1] == b[|b| - 1];
    } else {
      assert a + b == a;
    }
  }

  /** One request of the loop: the new postings of its response are appended to the findings so far. */
  method ClassifyResponse(r: Request, fetch: string -> seq<RawPosting>, history: map<string, string>, findings0: seq<Posting>)
    returns (findings: seq<Posting>)
    ensures findings == findings0 + NewOnly(Batch(r, fetch), history)
  {
    var postingList := fetch(r.url);
    ghost var batch := Batch(r, fetch);
    findings := findings0;
    for k := 0 to |postingList|
      invariant findings == findings0 + NewOnly(batch[..k], history)
    {
      var p := MakePosting(postingList[k], r.base);
      assert batch[..k + 1][..k] == batch[..k];
      if p.postingId !in history {
        findings := findings + [p];
      }
    }
    assert batch[..|postingList|] == batch;
  }

  lemma NewOnlyStep(rs: seq<Request>, e: nat, fetch: string -> seq<RawPosting>, history: map<string, string>)
    requires e < |rs|
    ensures NewOnly(Fetched(rs[..e + 1], fetch), history) ==
      NewOnly(Fetched(rs[..e], fetch), history) + NewOnly(Batch(rs[e], fetch), history)
  {
    assert rs[..e + 1] == rs[..e] + [rs[e]];
    FetchedSnoc(rs[..e], rs[e], fetch);
    NewOnlyAppend(Fetched(rs[..e], fetch), Batch(rs[e], fetch), history);
  }

  /** One turn of the request loop keeps its invariant. */
  lemma ClassifyStep(rs: seq<Request>, e: nat, fetch: string -> seq<RawPosting>, history: map<string, string>,
                     findings0: seq<Posting>, before: seq<Posting>, after: seq<Posting>)
    requires e < |rs|
    requires before == findings0 + NewOnly(Fetched(rs[..e], fetch), history)
    requires after == before + NewOnly(Batch(rs[e], fetch), history)
    ensures after == findings0 + NewOnly(Fetched(rs[..e + 1], fetch), history)
  {
    NewOnlyStep(rs, e, fetch, history);
    var sofar := NewOnly(Fetched(rs[..e], fetch), history);
    var found := NewOnly(Batch(rs[e], fetch), history);
    assert (findings0 + sofar) + found == findings0 + (sofar + found);
  }

  /** The loop over the endpoints of one filter, for any list of requests. */
  method ClassifyRequests(rs: seq<Request>, fetch: string -> seq<RawPosting>, history: map<string, string>, findings0: seq<Posting>)
    returns (findings: seq<Posting>)
    ensures findings == findings0 + NewOnly(Fetched(rs, fetch), history)
  {
    findings := findings0;
    assert rs[..0] == [];
    for e := 0 to |rs|
      invariant findings == findings0 + NewOnly(Fetched(rs[..e], fetch), history)
    {
      ghost var before := findings;
      findings := ClassifyResponse(rs[e], fetch, history, findings);
      ClassifyStep(rs, e, fetch, history, findings0, before, findings);
    }
    assert rs[..|rs|] == rs;
  }

  /**
   * The main program's loops. The history is only read, never updated, so a
   * new posting that is fetched twice in one run is a finding twice.
   */
  method Classify(filters: seq<Filter>, fetch: string -> seq<RawPosting>, history: map<string, string>)
    returns (findings: seq<Posting>)
    ensures findings == NewOnly(Fetched(Requests(filters), fetch), history)
  {
    findings := [];
    for i := 0 to |filters|
      invariant findings == NewOnly(Fetched(Requests(filters[..i]), fetch), history)
    {
      ghost var before := Requests(filters[..i]);
      RequestsSnoc(filters, i);
      findings := ClassifyRequests(FilterRequests(filters[i]), fetch, history, findings);
      FetchedAppend(before, FilterRequests(filters[i]), fetch);
      NewOnlyAppend(Fetched(before, fetch), Fetched(FilterRequests(filters[i]), fetch), history);
    }
    assert filters[..|filters|] == filters;
  }

  /** Soundness and completeness, with multiplicity: a posting is kept exactly as often as it was fetched, if its id is new. */
  lemma {:induction false} NewOnlyCount(ps: seq<Posting>, history: map<string, string>, p: Posting)
    ensures multiset(NewOnly(ps, history))[p] == if p.postingId in history then 0 else multiset(ps)[p]
    decreases |ps|
  {
    if |ps| > 0 {
      var front := ps[..|ps| - 1];
      NewOnlyCount(front, history, p);
      assert ps == front + [ps[|ps| - 1]];
    }
  }

  /** The ids of a list of postings, in order. */
  function Ids(ps: seq<Posting>): (ids: seq<string>)
    ensures |ids| == |ps|
    ensures forall i :: 0 <= i < |ps| ==> ids[i] == ps[i].postingId
  {
    seq(|ps|, i requires 0 <= i < |ps| => ps[i].postingId)
  }

  /** No de-duplication within a run: a new id appears among the findings as often as it was fetched. */
  lemma {:induction false} NewIdsKeepDuplicates(ps: seq<Posting>, history: map<string, string>, id: string)
    ensures multiset(Ids(NewOnly(ps, history)))[id] == if id in history then 0 else multiset(Ids(ps))[id]
    decreases |ps|
  {
    if |ps| > 0 {
      var front := ps[..|ps| - 1];
      var last := ps[|ps| - 1];
      NewIdsKeepDuplicates(front, history, id);
      assert Ids(ps) == Ids(front) + [last.postingId];
      if last.postingId in history {
        assert NewOnly(ps, history) == NewOnly(front, history);
      } else {
        assert Ids(NewOnly(ps, history)) == Ids(NewOnly(front, history)) + [last.postingId];
      }
    }
  }

  /** Every fetched posting with a new id is among the findings. */
  lemma NewOnlyComplete(ps: seq<Posting>, history: map<string, string>, i: int)
    requires 0 <= i < |ps| && ps[i].postingId !in history
    ensures ps[i] in NewOnly(ps, history)
  {
    NewOnlyCount(ps, history, ps[i]);
    assert ps[i] in multiset(ps);
  }

  /** Once every fetched id is in the history, nothing is new. */
  lemma {:induction false} NewOnlyAllKnown(ps: seq<Posting>, history: map<string, string>)
    requires forall i :: 0 <= i < |ps| ==> ps[i].postingId in history
    ensures NewOnly(ps, history) == []
    decreases |ps|
  {
    if |ps| > 0 {
      NewOnlyAllKnown(ps[..|ps| - 1], history);
    }
  }

  /** Classifying the findings again against the same history changes nothing. */
  lemma {:induction false} NewOnlyIdempotent(ps: seq<Posting>, history: map<string, string>)
    ensures NewOnly(NewOnly(ps, history), history) == NewOnly(ps, history)
    decreases |ps|
  {
    if |ps| > 0 {
      var front := ps[..|ps| - 1];
      var last := ps[|ps| - 1];
      NewOnlyIdempotent(front, history);
      if last.postingId !in history {
        NewOnlyAppend(NewOnly(front, history), [last], history);
        assert [last][..0] == [];
        assert NewOnly([last], history) == [last];
      } else {
        assert NewOnly(ps, history) == NewOnly(front, history);
      }
    }
  }

  /** The order of discovery: MediaMarkt's postings for a filter come before Saturn's, and both before the next filter's. */
  lemma FetchOrder(filters: seq<Filter>, f: Filter, fetch: string -> seq<RawPosting>)
    ensures Fetched(Requests(filters + [f]), fetch) ==
      Fetched(Requests(filters), fetch)
        + Batch(Request(MediaMarkt, QueryUrl(f, MediaMarkt)), fetch)
        + Batch(Request(Saturn, QueryUrl(f, Saturn)), fetch)
  {
    assert (filters + [f])[..|filters|] == filters;
    var rs := Requests(filters);
    var mm := Request(MediaMarkt, QueryUrl(f, MediaMarkt));
    var sa := Request(Saturn, QueryUrl(f, Saturn));
    assert Requests(filters + [f]) == (rs + [mm]) + [sa];
    FetchedSnoc(rs + [mm], sa, fetch);
    FetchedSnoc(rs, mm, fetch);
  }
}

=== FILE: decimal.dfy ===
/** Python's `str()` of an integer: optional minus sign, then decimal digits. */
module Decimal {

  predicate IsDigit(c: char) {
    '0' <= c <= '9'
  }

  predicate AllDigits(s: string) {
    forall i :: 0 <= i < |s| ==> IsDigit(s[i])
  }

  function DigitChar(d: nat): (c: char)
    requires d < 10
    ensures IsDigit(c)
  {
    (('0' as int) + d) as char
  }

  function DigitValue(c: char): (d: nat)
    requires IsDigit(c)
    ensures d < 10
    ensures DigitChar(d) == c
  {
    (c as int) - ('0' as int)
  }

  /** Decimal digits of `n`, most significant first, without leading zeros. */
  function NatToString(n: nat): (s: string)
    ensures |s| > 0
    ensures AllDigits(s)
    ensures |s| > 1 ==> s[0] != '0'
    decreases n
  {
    if n < 10 then [DigitChar(n)] else NatToString(n / 10) + [DigitChar(n % 10)]
  }

  /** Reads a run of decimal digits back into a number. */
  function ParseNat(s: string): nat
    requires AllDigits(s)
  {
    if |s| == 0 then 0 else ParseNat(s[..|s| - 1]) * 10 + DigitValue(s[|s| - 1])
  }

  lemma {:induction false} ParseNatToString(n: nat)
    ensures ParseNat(NatToString(n)) == n
    decreases n
  {
    if n >= 10 {
      var s := NatToString(n);
      assert s[..|s| - 1] == NatToString(n / 10);
      ParseNatToString(n / 10);
    }
  }

  /** `str(i)` for a Python `int`. */
  function IntToString(i: int): (s: string)
    ensures |s| > 0
    ensures s[0] == '-' <==> i < 0
    ensures i < 0 ==> AllDigits(s[1..])
    ensures i >= 0 ==> AllDigits(s)
  {
    if i < 0 then "-" + NatToString(-i) else NatToString(i)
  }

  /** Inverse of `IntToString`. */
  function ParseInt(s: string): int
    requires |s| > 0
    requires if s[0] == '-' then AllDigits(s[1..]) else AllDigits(s)
  {
    if s[0] == '-' then -(ParseNat(s[1..]) as int) else ParseNat(s)
  }

  lemma IntToStringRoundTrip(i: int)
    ensures ParseInt(IntToString(i)) == i
  {
    if i < 0 {
      assert IntToString(i)[1..] == NatToString(-i);
      ParseNatToString(-i);
    } else {
      ParseNatToString(i);
    }
  }
}

=== FILE: filters.dfy ===
/** Search filters (`GameFilter`, `read_games_from_json`) and the listing query URL built from them. */
module Filters {
  import opened Wrappers
  import Decimal
  import Quoting
  import Text
  import Urls

  /** A JSON scalar as the filter configuration may hold it. */
  datatype Scalar = Null | Bool(b: bool) | Int(i: int) | Str(s: string)

  /** Python truthiness of the decoded value. */
  predicate Truthy(v: Scalar) {
    match v
    case Null => false
    case Bool(b) => b
    case Int(i) => i != 0
    case Str(s) => s != ""
  }

  /** Python's `str()` of the decoded value, as an f-string writes it. */
  function Render(v: Scalar): string {
    match v
    case Null => "None"
    case Bool(b) => if b then "True" else "False"
    case Int(i) => Decimal.IntToString(i)
    case Str(s) => s
  }

  /** A search filter: text to search for and an optional price ceiling (`Null` when absent). */
  datatype Filter = Filter(search: string, price: Scalar)

  datatype FilterError =
    | MissingInclude        // `item['include']` raises KeyError
    | DuplicateArgument     // `search` or `self` among the keyword arguments: TypeError
    | SearchNotText         // `quote(fil.search)` of a non-string: TypeError

  /**
   * `GameFilter(item['include'], **item)`. The search text is the `include`
   * field, the price is the `price` field or `Null`. A non-string `include` is
   * rejected here although the source fails only when it quotes it: no state
   * is persisted and no mail is sent before either point.
   */
  function ParseFilter(item: map<string, Scalar>): (r: Result<Filter, FilterError>)
    ensures r.Ok? <==> "include" in item && item["include"].Str? && "search" !in item && "self" !in item
    ensures r.Ok? ==> r.value.search == item["include"].s
    ensures r.Ok? ==> r.value.price == (if "price" in item then item["price"] else Null)
    ensures "include" !in item ==> r == Err(MissingInclude)
  {
    if "include" !in item then Err(MissingInclude)
    else if "search" in item || "self" in item then Err(DuplicateArgument)
    else if !item["include"].Str? then Err(SearchNotText)
    else Ok(Filter(item["include"].s, if "price" in item then item["price"] else Null))
  }

  /** `read_games_from_json` after JSON decoding: every item parsed in order, the first failure wins. */
  function LoadFilters(items: seq<map<string, Scalar>>): (r: Result<seq<Filter>, FilterError>)
    ensures r.Ok? <==> forall i :: 0 <= i < |items| ==> ParseFilter(items[i]).Ok?
    ensures r.Ok? ==> |r.value| == |items|
    ensures r.Ok? ==> forall i :: 0 <= i < |items| ==> ParseFilter(items[i]) == Ok(r.value[i])
    ensures r.Err? ==>
      exists i :: 0 <= i < |items| && ParseFilter(items[i]) == Err(r.error) && (forall j :: 0 <= j < i ==> ParseFilter(items[j]).Ok?)
    decreases |items|
  {
    if |items| == 0 then Ok([])
    else
      match ParseFilter(items[0])
      case Err(e) => Err(e)
      case Ok(f) =>
        var rest := LoadFilters(items[1..]);
        assert forall i :: 1 <= i < |items| ==> items[i] == items[1..][i - 1];
        match rest
        case Err(e) =>
          var i :| 0 <= i < |items[1..]| && ParseFilter(items[1..][i]) == Err(e) &&
            (forall j :: 0 <= j < i ==> ParseFilter(items[1..][j]).Ok?);
          assert ParseFilter(items[i + 1]) == Err(e);
          Err(e)
        case Ok(fs) => Ok([f] + fs)
  }

  const MediaMarkt: string := "https://www.mediamarkt.de/de/data/fundgrube"
  const Saturn: string := "https://www.saturn.de/de/data/fundgrube"

  /**
   * The listing request for one filter on one endpoint: the newest 32
   * postings whose text matches the quoted search text, with a price ceiling
   * only when the filter's price is truthy.
   */
  function QueryUrl(f: Filter, base: string): string {
    var url := FixedUrl(f, base);
    if Truthy(f.price) then url + "&priceMax=" + Render(f.price) else url
  }

  /**
   * The part of the listing request every filter sends. The fixed query text
   * `limit=32&offset=0&orderBy=new&recentFilter=text&text=` is written out
   * piece by piece.
   */
  function FixedUrl(f: Filter, base: string): string {
    base + "/api/postings" + "?" + "limit=32" + "&" + "offset=0" + "&" + "orderBy=new" + "&" +
      "recentFilter=text" + "&" + "text=" + Quoting.Quote(f.search)
  }

  const FixedKeys: seq<string> := ["limit", "offset", "orderBy", "recentFilter", "text"]

  function FixedValues(f: Filter): seq<string> {
    ["32", "0", "new", "text", Quoting.Quote(f.search)]
  }

  lemma FixedPairs(q: string)
    ensures Urls.Pairs(FixedKeys, ["32", "0", "new", "text", q]) ==
      ["limit=32", "offset=0", "orderBy=new", "recentFilter=text", "text=" + q]
  {
    var ps := Urls.Pairs(FixedKeys, ["32", "0", "new", "text", q]);
    assert ps[0] == "limit" + "=" + "32" == "limit=32";
    assert ps[1] == "offset" + "=" + "0" == "offset=0";
    assert ps[2] == "orderBy" + "=" + "new" == "orderBy=new";
    assert ps[3] == "recentFilter" + "=" + "text" == "recentFilter=text";
    assert ps[4] == "text" + "=" + q == "text=" + q;
  }

  lemma JoinFive(a: string, b: string, c: string, d: string, e: string)
    ensures Text.Join([a, b, c, d, e], "&") == a + "&" + b + "&" + c + "&" + d + "&" + e
  {
    var ps := [a, b, c, d, e];
    assert ps[..1] == [a];
    Text.JoinSnoc([a], b, "&");
    assert [a] + [b] == [a, b];
    Text.JoinSnoc([a, b], c, "&");
    assert [a, b] + [c] == [a, b, c];
    Text.JoinSnoc([a, b, c], d, "&");
    assert [a, b, c] + [d] == [a, b, c, d];
    Text.JoinSnoc([a, b, c, d], e, "&");
    assert [a, b, c, d] + [e] == ps;
  }

  lemma FixedUrlShape(f: Filter, base: string)
    ensures FixedUrl(f, base) == base + "/api/postings" + "?" + Text.Join(Urls.Pairs(FixedKeys, FixedValues(f)), "&")
  {
    var q := Quoting.Quote(f.search);
    FixedPairs(q);
    JoinFive("limit=32", "offset=0", "orderBy=new", "recentFilter=text", "text=" + q);
  }

  lemma QueryUrlShape(f: Filter, base: string)
    ensures !Truthy(f.price) ==>
      QueryUrl(f, base) == base + "/api/postings" + "?" + Text.Join(Urls.Pairs(FixedKeys, FixedValues(f)), "&")
    ensures Truthy(f.price) ==>
      QueryUrl(f, base) == base + "/api/postings" + "?" +
        Text.Join(Urls.Pairs(FixedKeys + ["priceMax"], FixedValues(f) + [Render(f.price)]), "&")
  {
    FixedUrlShape(f, base);
    if Truthy(f.price) {
      var ps := Urls.Pairs(FixedKeys, FixedValues(f));
      var ps' := Urls.Pairs(FixedKeys + ["priceMax"], FixedValues(f) + [Render(f.price)]);
      assert ps' == ps + [Urls.Pair("priceMax", Render(f.price))];
      Text.JoinSnoc(ps, Urls.Pair("priceMax", Render(f.price)), "&");
    }
  }

  lemma KeysArePlain(keys: seq<string>)
    requires keys == FixedKeys || keys == FixedKeys + ["priceMax"]
    ensures forall j :: 0 <= j < |keys| ==> '=' !in keys[j] && '&' !in keys[j]
    ensures forall j :: 0 <= j < |keys| ==> keys[j] != "priceMax" || j == 5
  {
  }

  lemma ValuesArePlain(f: Filter, values: seq<string>)
    requires '&' !in Render(f.price)
    requires values == FixedValues(f) || values == FixedValues(f) + [Render(f.price)]
    ensures forall j :: 0 <= j < |values| ==> '&' !in values[j]
  {
    Quoting.QuoteHasNoDelimiters(f.search);
  }

  lemma FixedParams(path: string, keys: seq<string>, values: seq<string>, f: Filter)
    requires '?' !in path && '&' !in Render(f.price)
    requires (keys == FixedKeys && values == FixedValues(f)) ||
             (keys == FixedKeys + ["priceMax"] && values == FixedValues(f) + [Render(f.price)])
    ensures Urls.Path(path + "?" + Text.Join(Urls.Pairs(keys, values), "&")) == path
    ensures Urls.Param(path + "?" + Text.Join(Urls.Pairs(keys, values), "&"), "limit") == Some("32")
    ensures Urls.Param(path + "?" + Text.Join(Urls.Pairs(keys, values), "&"), "offset") == Some("0")
    ensures Urls.Param(path + "?" + Text.Join(Urls.Pairs(keys, values), "&"), "orderBy") == Some("new")
  {
    KeysArePlain(keys);
    ValuesArePlain(f, values);
    Urls.ParamOfJoin(path, keys, values, 0);
    Urls.ParamOfJoin(path, keys, values, 1);
    Urls.ParamOfJoin(path, keys, values, 2);
  }

  lemma RecentFilterParam(path: string, keys: seq<string>, values: seq<string>, f: Filter)
    requires '?' !in path && '&' !in Render(f.price)
    requires (keys == FixedKeys && values == FixedValues(f)) ||
             (keys == FixedKeys + ["priceMax"] && values == FixedValues(f) + [Render(f.price)])
    ensures Urls.Param(path + "?" + Text.Join(Urls.Pairs(keys, values), "&"), "recentFilter") == Some("text")
  {
    KeysArePlain(keys);
    ValuesArePlain(f, values);
    Urls.ParamOfJoin(path, keys, values, 3);
  }

  lemma TextParam(path: string, keys: seq<string>, values: seq<string>, f: Filter)
    requires '?' !in path && '&' !in Render(f.price)
    requires (keys == FixedKeys && values == FixedValues(f)) ||
             (keys == FixedKeys + ["priceMax"] && values == FixedValues(f) + [Render(f.price)])
    ensures Urls.Param(path + "?" + Text.Join(Urls.Pairs(keys, values), "&"), "text") == Some(Quoting.Quote(f.search))
  {
    KeysArePlain(keys);
    ValuesArePlain(f, values);
    Urls.ParamOfJoin(path, keys, values, 4);
  }

  /** The query of a request URL has no pieces but the fixed five and the optional price ceiling. */
  lemma QueryUrlPieces(f: Filter, base: string)
    requires '?' !in base
    requires '&' !in Render(f.price)
    ensures |Text.Split(Urls.Query(QueryUrl(f, base)), '&')| == if Truthy(f.price) then 6 else 5
  {
    QueryUrlShape(f, base);
    var path := base + "/api/postings";
    assert '?' !in path;
    var keys := if Truthy(f.price) then FixedKeys + ["priceMax"] else FixedKeys;
    var values := if Truthy(f.price) then FixedValues(f) + [Render(f.price)] else FixedValues(f);
    KeysArePlain(keys);
    ValuesArePlain(f, values);
    Urls.PiecesOfJoin(path, keys, values);
  }

  lemma QueryUrlHead(f: Filter, base: string)
    requires '?' !in base
    requires '&' !in Render(f.price)
    ensures Urls.Path(QueryUrl(f, base)) == base + "/api/postings"
    ensures Urls.Param(QueryUrl(f, base), "limit") == Some("32")
    ensures Urls.Param(QueryUrl(f, base), "offset") == Some("0")
    ensures Urls.Param(QueryUrl(f, base), "orderBy") == Some("new")
  {
    QueryUrlShape(f, base);
    var path := base + "/api/postings";
    assert '?' !in path;
    var keys := if Truthy(f.price) then FixedKeys + ["priceMax"] else FixedKeys;
    var values := if Truthy(f.price) then FixedValues(f) + [Render(f.price)] else FixedValues(f);
    FixedParams(path, keys, values, f);
  }

  lemma QueryUrlTail(f: Filter, base: string)
    requires '?' !in base
    requires '&' !in Render(f.price)
    ensures Urls.Param(QueryUrl(f, base), "recentFilter") == Some("text")
    ensures Urls.Param(QueryUrl(f, base), "text") == Some(Quoting.Quote(f.search))
  {
    QueryUrlShape(f, base);
    var path := base + "/api/postings";
    assert '?' !in path;
    var keys := if Truthy(f.price) then FixedKeys + ["priceMax"] else FixedKeys;
    var values := if Truthy(f.price) then FixedValues(f) + [Render(f.price)] else FixedValues(f);
    RecentFilterParam(path, keys, values, f);
    TextParam(path, keys, values, f);
  }

  lemma QueryUrlPrice(f: Filter, base: string)
    requires '?' !in base
    requires '&' !in Render(f.price)
    ensures Urls.Param(QueryUrl(f, base), "priceMax").Some? <==> Truthy(f.price)
    ensures Truthy(f.price) ==> Urls.Param(QueryUrl(f, base), "priceMax") == Some(Render(f.price))
  {
    QueryUrlShape(f, base);
    var path := base + "/api/postings";
    assert '?' !in path;
    var keys := if Truthy(f.price) then FixedKeys + ["priceMax"] else FixedKeys;
    var values := if Truthy(f.price) then FixedValues(f) + [Render(f.price)] else FixedValues(f);
    KeysArePlain(keys);
    ValuesArePlain(f, values);
    if Truthy(f.price) {
      Urls.ParamOfJoin(path, keys, values, 5);
    } else {
      Urls.ParamOfJoinAbsent(path, keys, values, "priceMax");
    }
  }

  /**
   * Read back, a query URL asks the endpoint's posting API for the newest 32
   * postings from offset 0 matching the filter text, and carries a `priceMax`
   * parameter exactly when the filter's price is truthy, holding that price.
   * The query has no other pieces: five, or six with a price ceiling.
   */
  lemma QueryUrlParams(f: Filter, base: string)
    requires '?' !in base
    requires '&' !in Render(f.price)
    ensures Urls.Path(QueryUrl(f, base)) == base + "/api/postings"
    ensures Urls.Param(QueryUrl(f, base), "limit") == Some("32")
    ensures Urls.Param(QueryUrl(f, base), "offset") == Some("0")
    ensures Urls.Param(QueryUrl(f, base), "orderBy") == Some("new")
    ensures Urls.Param(QueryUrl(f, base), "recentFilter") == Some("text")
    ensures Urls.Param(QueryUrl(f, base), "text") == Some(Quoting.Quote(f.search))
    ensures |Text.Split(Urls.Query(QueryUrl(f, base)), '&')| == if Truthy(f.price) then 6 else 5
    ensures Urls.Param(QueryUrl(f, base), "priceMax").Some? <==> Truthy(f.price)
    ensures Truthy(f.price) ==> Urls.Param(QueryUrl(f, base), "priceMax") == Some(Render(f.price))
  {
    QueryUrlHead(f, base);
    QueryUrlTail(f, base);
    QueryUrlPieces(f, base);
    QueryUrlPrice(f, base);
  }

  /** Together with the quoting round trip: the `text` parameter decodes to the filter's search text. */
  lemma QueryUrlSearchRoundTrip(f: Filter, base: string)
    requires '?' !in base
    requires '&' !in Render(f.price)
    ensures Urls.Param(QueryUrl(f, base), "text").Some?
    ensures Quoting.Unquote(Urls.Param(QueryUrl(f, base), "text").value) == Some(f.search)
  {
    QueryUrlParams(f, base);
    Quoting.QuoteRoundTrip(f.search);
  }

  /**
   * The integer prices a configuration normally holds never break the query
   * string, so they meet the `&`-free requirement of `QueryUrlParams`.
   */
  lemma IntPriceHasNoAmpersand(i: int)
    ensures '&' !in Render(Int(i))
  {
    var s := Decimal.IntToString(i);
    assert forall k :: 0 <= k < |s| ==> s[k] == '-' || Decimal.IsDigit(s[k]);
  }
}

=== FILE: history.dfy ===
/**
 * The results file (`read_results_from_csv`, `save_results`): an append-only
 * CSV log of every posting found, read back as a map from posting id to the
 * date it was recorded.
 */
module History {
  import opened Wrappers
  import opened Postings

  /** One CSV record with the file format's quoting undone; a blank line is `[]`. */
  type Row = seq<string>

  /** The results file: `None` while it does not exist. */
  type File = Option<seq<Row>>

  const Header: Row := ["Date", "Id", "Name", "Price", "Url"]

  /** The record written for one finding. */
  function Record(p: Posting, now: string): Row {
    [now, p.postingId, p.name, p.price, DirectUrl(p)]
  }

  function Records(findings: seq<Posting>, now: string): (rows: seq<Row>)
    ensures |rows| == |findings|
    ensures forall i :: 0 <= i < |findings| ==> rows[i] == Record(findings[i], now)
  {
    seq(|findings|, i requires 0 <= i < |findings| => Record(findings[i], now))
  }

  /**
   * `save_results`: opens the file for appending, writes the header only if
   * the file did not exist, then one record per finding, all stamped with
   * the same `now`. Existing rows are never touched.
   */
  function Save(file: File, findings: seq<Posting>, now: string): (r: File)
    ensures r.Some?
    ensures file.Some? ==> |r.value| == |file.value| + |findings| && r.value[..|file.value|] == file.value
    ensures file.None? ==> |r.value| == 1 + |findings| && r.value[0] == Header
    ensures forall i :: 0 <= i < |findings| ==> r.value[|r.value| - |findings| + i] == Record(findings[i], now)
  {
    var existing := if file.Some? then file.value else [Header];
    var rows := existing + Records(findings, now);
    assert rows[..|existing|] == existing;
    Some(rows)
  }

  // ---------------------------------------------------------------------
  // csv.DictReader
  // ---------------------------------------------------------------------

  /** `dict(zip(header, row))` over the first `n` columns: a later duplicate column name wins. */
  function ZipDict(header: Row, row: Row, n: nat): map<string, Option<string>>
    requires n <= |header| && n <= |row|
  {
    if n == 0 then map[] else ZipDict(header, row, n - 1)[header[n - 1] := Some(row[n - 1])]
  }

  /** Columns the row is too short for are set to the reader's `restval`, `None`. */
  function PadDict(d: map<string, Option<string>>, names: seq<string>): map<string, Option<string>>
    decreases |names|
  {
    if |names| == 0 then d else PadDict(d[names[0] := None], names[1..])
  }

  /** The dict `csv.DictReader` yields for one data row (extra cells go under a `None` key, never read here). */
  function RowDict(header: Row, row: Row): map<string, Option<string>> {
    if |header| <= |row| then ZipDict(header, row, |header|)
    else PadDict(ZipDict(header, row, |row|), header[|row|..])
  }

  /** The row's `Id` cell: `None` when the column is missing or the row too short. */
  function IdCell(header: Row, row: Row): Option<string> {
    var d := RowDict(header, row);
    if "Id" in d then d["Id"] else None
  }

  datatype LoadError =
    | MissingColumn(name: string)       // `row['Date']` or `row['Id']` raises KeyError
    | BadDate(cell: Option<string>)      // `strptime` raises TypeError (None) or ValueError

  /**
   * `result_dict[row['Id']] = datetime.strptime(row['Date'], ...)`: the
   * right-hand side is evaluated first, so the date is checked before the id
   * is looked up. `dateOk` stands for `strptime` with `%Y-%m-%d %H:%M:%S`;
   * the date is kept as its text.
   */
  function Entry(header: Row, row: Row, dateOk: string -> bool): (r: Result<(Option<string>, string), LoadError>)
    ensures r.Ok? ==> r.value.0 == IdCell(header, row)
  {
    var d := RowDict(header, row);
    if "Date" !in d then Err(MissingColumn("Date"))
    else if d["Date"].None? then Err(BadDate(None))
    else if !dateOk(d["Date"].value) then Err(BadDate(d["Date"]))
    else if "Id" !in d then Err(MissingColumn("Id"))
    else Ok((d["Id"], d["Date"].value))
  }

  /** Row `j` is a non-blank data row whose `Id` cell is `k`. */
  ghost predicate HasId(header: Row, data: seq<Row>, j: int, k: string) {
    0 <= j < |data| && data[j] != [] && IdCell(header, data[j]) == Some(k)
  }

  /** Row `j` is the first non-blank data row that does not read cleanly. */
  ghost predicate FirstFailure(header: Row, data: seq<Row>, dateOk: string -> bool, j: int) {
    && 0 <= j < |data| && data[j] != [] && Entry(header, data[j], dateOk).Err?
    && forall j' :: 0 <= j' < j && data[j'] != [] ==> Entry(header, data[j'], dateOk).Ok?
  }

  /**
   * The loop over the reader's rows: blank rows are skipped, every other row
   * stores its date under its id, so a later row with the same id
   * overwrites an earlier one. The first failing row aborts the load.
   */
  function Fold(header: Row, data: seq<Row>, dateOk: string -> bool): (r: Result<map<string, string>, LoadError>)
    ensures r.Ok? ==> forall k :: k in r.value <==> exists j :: HasId(header, data, j, k)
    ensures r.Ok? ==> forall j :: 0 <= j < |data| && data[j] != [] ==> Entry(header, data[j], dateOk).Ok?
    decreases |data|
  {
    if |data| == 0 then Ok(map[])
    else
      var front := data[..|data| - 1];
      var row := data[|data| - 1];
      match Fold(header, front, dateOk)
      case Err(e) => Err(e)
      case Ok(m) =>
        assert forall j :: 0 <= j < |front| ==> front[j] == data[j];
        assert forall j, k :: HasId(header, front, j, k) ==> HasId(header, data, j, k);
        if row == [] then
          assert forall j, k :: HasId(header, data, j, k) ==> HasId(header, front, j, k);
          Ok(m)
        else
          match Entry(header, row, dateOk)
          case Err(e) => Err(e)
          case Ok((id, date)) =>
            assert forall j, k :: HasId(header, data, j, k) && j < |front| ==> HasId(header, front, j, k);
            assert forall k :: HasId(header, data, |data| - 1, k) <==> id == Some(k);
            Ok(if id.Some? then m[id.value := date] else m)
  }

  /**
   * The load succeeds exactly when every non-blank row reads cleanly, and a
   * failed load reports the error of the first row that does not.
   */
  lemma {:induction false} FoldOutcome(header: Row, data: seq<Row>, dateOk: string -> bool)
    ensures Fold(header, data, dateOk).Ok? <==>
      forall j :: 0 <= j < |data| && data[j] != [] ==> Entry(header, data[j], dateOk).Ok?
    ensures Fold(header, data, dateOk).Err? ==>
      exists j :: FirstFailure(header, data, dateOk, j) && Entry(header, data[j], dateOk) == Err(Fold(header, data, dateOk).error)
    decreases |data|
  {
    if |data| > 0 {
      var front := data[..|data| - 1];
      var row := data[|data| - 1];
      FoldOutcome(header, front, dateOk);
      assert forall j :: 0 <= j < |front| ==> front[j] == data[j];
      match Fold(header, front, dateOk)
      case Err(e) =>
        var j :| FirstFailure(header, front, dateOk, j) && Entry(header, front[j], dateOk) == Err(e);
        assert FirstFailure(header, data, dateOk, j);
      case Ok(_) =>
        if row != [] && Entry(header, row, dateOk).Err? {
          assert FirstFailure(header, data, dateOk, |data| - 1);
        }
    }
  }

  /** `read_results_from_csv`: the first row is the header, the rest are data. */
  function Load(rows: seq<Row>, dateOk: string -> bool): (r: Result<map<string, string>, LoadError>)
    ensures |rows| <= 1 ==> r == Ok(map[])
    ensures r.Ok? <==> forall j :: 1 <= j < |rows| && rows[j] != [] ==> Entry(rows[0], rows[j], dateOk).Ok?
    ensures |rows| > 0 && r.Ok? ==> forall k :: k in r.value <==> exists j :: HasId(rows[0], rows[1..], j, k)
  {
    if |rows| == 0 then Ok(map[])
    else
      FoldOutcome(rows[0], rows[1..], dateOk);
      assert forall j :: 1 <= j < |rows| ==> rows[1..][j - 1] == rows[j];
      Fold(rows[0], rows[1..], dateOk)
  }

  /** The caller's guard: a file that does not exist yet loads as an empty history. */
  function LoadFile(file: File, dateOk: string -> bool): (r: Result<map<string, string>, LoadError>)
    ensures file.None? ==> r == Ok(map[])
    ensures file.Some? ==> r == Load(file.value, dateOk)
  {
    match file
    case None => Ok(map[])
    case Some(rows) => Load(rows, dateOk)
  }

  /** The value stored for an id is the date of the last row carrying that id. */
  lemma {:induction false} LaterRowWins(header: Row, data: seq<Row>, dateOk: string -> bool, j: int, k: string)
    requires Fold(header, data, dateOk).Ok?
    requires HasId(header, data, j, k)
    requires forall j' :: j < j' < |data| ==> !HasId(header, data, j', k)
    ensures k in Fold(header, data, dateOk).value
    ensures Entry(header, data[j], dateOk).Ok?
    ensures Fold(header, data, dateOk).value[k] == Entry(header, data[j], dateOk).value.1
    decreases |data|
  {
    var front := data[..|data| - 1];
    var row := data[|data| - 1];
    if j < |data| - 1 {
      assert front[j] == data[j];
      forall j' | j < j' < |front|
        ensures !HasId(header, front, j', k)
      {
        assert front[j'] == data[j'];
        assert !HasId(header, data, j', k);
      }
      LaterRowWins(header, front, dateOk, j, k);
      if row != [] {
        assert !HasId(header, data, |data| - 1, k);
      }
    }
  }

  // ---------------------------------------------------------------------
  // Reading back what was saved
  // ---------------------------------------------------------------------

  /** The history after the findings were recorded at `now`. */
  function Stamp(m: map<string, string>, findings: seq<Posting>, now: string): (r: map<string, string>)
    ensures forall k :: k in r <==> k in m || exists i :: 0 <= i < |findings| && findings[i].postingId == k
    ensures forall i :: 0 <= i < |findings| ==> r[findings[i].postingId] == now
    decreases |findings|
  {
    if |findings| == 0 then m
    else
      var front := findings[..|findings| - 1];
      var last := findings[|findings| - 1];
      var r' := Stamp(m, front, now);
      assert forall i :: 0 <= i < |front| ==> front[i] == findings[i];
      r'[last.postingId := now]
  }

  /** Ids that were not found keep the date the history already held. */
  lemma {:induction false} StampKeepsOthers(m: map<string, string>, findings: seq<Posting>, now: string, k: string)
    requires k in m
    requires forall i :: 0 <= i < |findings| ==> findings[i].postingId != k
    ensures Stamp(m, findings, now)[k] == m[k]
    decreases |findings|
  {
    if |findings| > 0 {
      var front := findings[..|findings| - 1];
      assert forall i :: 0 <= i < |front| ==> front[i] == findings[i];
      StampKeepsOthers(m, front, now, k);
    }
  }

  /** One more non-blank row that reads cleanly stores its date under its id. */
  lemma FoldSnoc(header: Row, data: seq<Row>, row: Row, dateOk: string -> bool)
    requires Fold(header, data, dateOk).Ok?
    requires row != [] && Entry(header, row, dateOk).Ok? && Entry(header, row, dateOk).value.0.Some?
    ensures Fold(header, data + [row], dateOk) ==
      Ok(Fold(header, data, dateOk).value[Entry(header, row, dateOk).value.0.value := Entry(header, row, dateOk).value.1])
  {
    assert (data + [row])[..|data|] == data;
  }

  lemma HeaderRecordEntry(p: Posting, now: string, dateOk: string -> bool)
    requires dateOk(now)
    ensures Entry(Header, Record(p, now), dateOk) == Ok((Some(p.postingId), now))
  {
    var r := Record(p, now);
    assert ZipDict(Header, r, 1) == map["Date" := Some(now)];
    assert ZipDict(Header, r, 2) == map["Date" := Some(now), "Id" := Some(p.postingId)];
    assert ZipDict(Header, r, 3) == ZipDict(Header, r, 2)["Name" := Some(p.name)];
    assert ZipDict(Header, r, 4) == ZipDict(Header, r, 3)["Price" := Some(p.price)];
    assert ZipDict(Header, r, 5) == ZipDict(Header, r, 4)["Url" := Some(DirectUrl(p))];
    assert RowDict(Header, r)["Date"] == Some(now);
    assert RowDict(Header, r)["Id"] == Some(p.postingId);
  }

  lemma RecordsSnoc(findings: seq<Posting>, now: string)
    requires |findings| > 0
    ensures Records(findings, now) == Records(findings[..|findings| - 1], now) + [Record(findings[|findings| - 1], now)]
  {
  }

  /** Appending records under the standard header adds exactly their ids, stamped `now`. */
  lemma {:induction false} FoldRecords(data: seq<Row>, findings: seq<Posting>, now: string, dateOk: string -> bool)
    requires Fold(Header, data, dateOk).Ok?
    requires dateOk(now)
    ensures Fold(Header, data + Records(findings, now), dateOk) == Ok(Stamp(Fold(Header, data, dateOk).value, findings, now))
    decreases |findings|
  {
    if |findings| > 0 {
      var front := findings[..|findings| - 1];
      var p := findings[|findings| - 1];
      FoldRecords(data, front, now, dateOk);
      RecordsSnoc(findings, now);
      assert data + Records(findings, now) == (data + Records(front, now)) + [Record(p, now)];
      HeaderRecordEntry(p, now, dateOk);
      FoldSnoc(Header, data + Records(front, now), Record(p, now), dateOk);
      assert Stamp(Fold(Header, data, dateOk).value, findings, now) ==
        Stamp(Fold(Header, data, dateOk).value, front, now)[p.postingId := now];
    } else {
      assert data + Records(findings, now) == data;
    }
  }

  /** The file's rows are read under the standard header (or it does not exist yet). */
  predicate HasStandardHeader(file: File) {
    file.None? || (|file.value| > 0 && file.value[0] == Header)
  }

  /** After a save under the standard header, the data rows are the old ones followed by the new records. */
  lemma SaveDataRows(file: File, findings: seq<Posting>, now: string)
    requires HasStandardHeader(file)
    ensures Save(file, findings, now).value[0] == Header
    ensures Save(file, findings, now).value[1..] == (if file.None? then [] else file.value[1..]) + Records(findings, now)
  {
    var existing := if file.Some? then file.value else [Header];
    assert (existing + Records(findings, now))[1..] == existing[1..] + Records(findings, now);
  }

  /**
   * Saving then loading: the loaded history is the old one plus every
   * finding's id mapped to the save time; the header is kept.
   */
  lemma LoadAfterSave(file: File, findings: seq<Posting>, now: string, dateOk: string -> bool)
    requires HasStandardHeader(file)
    requires LoadFile(file, dateOk).Ok?
    requires dateOk(now)
    ensures HasStandardHeader(Save(file, findings, now))
    ensures LoadFile(Save(file, findings, now), dateOk) == Ok(Stamp(LoadFile(file, dateOk).value, findings, now))
  {
    SaveDataRows(file, findings, now);
    var data := if file.None? then [] else file.value[1..];
    FoldRecords(data, findings, now, dateOk);
  }

  /**
   * An existing but empty results file gets no header on save, so the first
   * record is read back as the header and the next load fails on `Date`.
   */
  lemma SaveToEmptyFile(a: Posting, b: Posting, now: string, dateOk: string -> bool)
    requires now != "Date" && a.postingId != "Date" && a.name != "Date" && a.price != "Date"
    ensures LoadFile(Some([]), dateOk) == Ok(map[])
    ensures Save(Some([]), [a, b], now).value == [Record(a, now), Record(b, now)]
    ensures LoadFile(Save(Some([]), [a, b], now), dateOk) == Err(MissingColumn("Date"))
  {
    var rows := Save(Some([]), [a, b], now).value;
    assert rows == [Record(a, now), Record(b, now)];
    var h := Record(a, now);
    var row := Record(b, now);
    assert |DirectUrl(a)| > 4;
    assert "Date" !in ZipDict(h, row, 1);
    assert "Date" !in ZipDict(h, row, 2);
    assert "Date" !in ZipDict(h, row, 3);
    assert "Date" !in ZipDict(h, row, 4);
    assert "Date" !in RowDict(h, row);
    assert Entry(h, row, dateOk) == Err(MissingColumn("Date"));
    assert [row][..0] == [];
    assert rows[1..] == [row];
    assert Fold(h, [], dateOk) == Ok(map[]);
    assert Fold(h, [row], dateOk) == Err(MissingColumn("Date"));
    assert Load(rows, dateOk) == Fold(h, [row], dateOk);
  }
}

=== FILE: notifier.dfy ===
/**
 * `mail_notify`: decides whether a mail is sent, which one, and what the
 * persisted error marker (`data/previous_error.txt`) holds afterwards. The
 * SMTP exchange itself is not modelled; a `Sent` notice is the message handed
 * to it.
 */
module Notifier {
  import opened Wrappers
  import opened Postings
  import Decimal
  import Text

  /** An exception handed to `mail_notify`: its class name and its `repr()`. */
  datatype Failure = Failure(className: string, repr: string)

  /** The mail settings read from the environment; `None` when a variable is unset. */
  datatype MailEnv = MailEnv(sender: Option<string>, password: Option<string>, receiver: Option<string>)

  datatype MailKind = ErrorMail | NewItemsMail | FixedMail

  datatype Mail = Mail(kind: MailKind, from: string, to: string, subject: string, body: string)

  datatype Notice =
    | NoMail
    | Sent(mail: Mail)
    | RemoveFailed      // `os.remove` of a missing marker file raises FileNotFoundError; nothing is sent

  /** What a call leaves behind: the notice and the marker file's contents (`None`: no file). */
  datatype Outcome = Outcome(notice: Notice, marker: Option<string>)

  /** `mail_sender and mail_password`: both set and non-empty. */
  predicate Configured(env: MailEnv) {
    env.sender.Some? && env.sender.value != "" && env.password.Some? && env.password.value != ""
  }

  /** `error.__class__.__name__`: the class of `None` is `NoneType`. */
  function KindName(error: Option<Failure>): string {
    match error
    case None => "NoneType"
    case Some(e) => e.className
  }

  /** The receiver defaults to the sender when `MAIL_RECEIVER` is unset. */
  function Receiver(env: MailEnv): string
    requires env.sender.Some?
  {
    env.receiver.GetOr(env.sender.value)
  }

  /** One line of the new-items mail: the posting's summary and its direct URL. */
  function Line(p: Posting): string {
    Summary(p) + ": " + DirectUrl(p) + "\n"
  }

  /** The new-items mail text: the lines joined by `" \n"`. */
  function ItemsBody(postings: seq<Posting>): string {
    Text.Join(seq(|postings|, i requires 0 <= i < |postings| => Line(postings[i])), " \n")
  }

  /** The message for a decided mail; the subject is prefixed only when the mail goes back to the sender. */
  function Compose(env: MailEnv, kind: MailKind, subject: string, body: string): (m: Mail)
    requires Configured(env)
    ensures m.kind == kind && m.body == body
    ensures m.from == "Fundgrube Notifier <" + env.sender.value + ">"
    ensures env.receiver.None? ==> m.to == env.sender.value
    ensures env.receiver.Some? ==> m.to == env.receiver.value
    ensures m.subject == (if env.sender.value == m.to then "Fundgrube: " + subject else subject)
  {
    var to := Receiver(env);
    Mail(kind, "Fundgrube Notifier <" + env.sender.value + ">", to,
         if env.sender.value == to then "Fundgrube: " + subject else subject, body)
  }

  /**
   * The three mails, in the order the branches are tried: an error first
   * (the marker becomes its class name), then new items (marker kept), and
   * otherwise "error fixed", which removes the marker file and fails when
   * there is none.
   */
  function Deliver(env: MailEnv, marker: Option<string>, newCount: int, postings: seq<Posting>, error: Option<Failure>): (r: Outcome)
    requires Configured(env)
    ensures error.Some? ==> r == Outcome(Sent(Compose(env, ErrorMail, "An error occured", error.value.repr)), Some(error.value.className))
    ensures error.None? && newCount > 0 ==>
      r == Outcome(Sent(Compose(env, NewItemsMail, Decimal.IntToString(newCount) + " new items", ItemsBody(postings))), marker)
    ensures error.None? && newCount <= 0 && marker.Some? ==>
      r == Outcome(Sent(Compose(env, FixedMail, "Error fixed", "Previous error fixed")), None)
    ensures error.None? && newCount <= 0 && marker.None? ==> r == Outcome(RemoveFailed, None)
  {
    if error.Some? then
      Outcome(Sent(Compose(env, ErrorMail, "An error occured", error.value.repr)), Some(error.value.className))
    else if newCount > 0 then
      Outcome(Sent(Compose(env, NewItemsMail, Decimal.IntToString(newCount) + " new items", ItemsBody(postings))), marker)
    else if marker.None? then
      Outcome(RemoveFailed, None)
    else
      Outcome(Sent(Compose(env, FixedMail, "Error fixed", "Previous error fixed")), None)
  }

  /**
   * `mail_notify` as written. A mail is attempted when mail is configured and
   * there are new items or the error's class name differs from the stored
   * marker; with no error the name compared is `NoneType`, which never
   * equals a missing marker.
   */
  function Notify(env: MailEnv, marker: Option<string>, newCount: int, postings: seq<Posting>, error: Option<Failure>): (r: Outcome)
    ensures !Configured(env) ==> r == Outcome(NoMail, marker)
    ensures r.notice.NoMail? <==> !Configured(env) || (newCount <= 0 && marker == Some(KindName(error)))
    ensures r.notice.NoMail? ==> r.marker == marker
    ensures !r.notice.NoMail? ==> r == Deliver(env, marker, newCount, postings, error)
  {
    if Configured(env) && (newCount > 0 || Some(KindName(error)) != marker) then
      Deliver(env, marker, newCount, postings, error)
    else
      Outcome(NoMail, marker)
  }

  /** The error kind as an optional value: `None` when there is no error, matching a missing marker. */
  function ErrorKind(error: Option<Failure>): Option<string> {
    match error
    case None => None
    case Some(e) => Some(e.className)
  }

  /**
   * `mail_notify` as its comment intends ("only send mail if: new data, or
   * error, or error fixed"): no error and no marker means nothing to report.
   */
  function NotifyIntended(env: MailEnv, marker: Option<string>, newCount: int, postings: seq<Posting>, error: Option<Failure>): (r: Outcome)
    ensures !Configured(env) ==> r == Outcome(NoMail, marker)
    ensures r.notice.NoMail? <==> !Configured(env) || (newCount <= 0 && marker == ErrorKind(error))
    ensures r.notice.NoMail? ==> r.marker == marker
    ensures !r.notice.RemoveFailed?
    ensures !r.notice.NoMail? ==> r == Deliver(env, marker, newCount, postings, error)
  {
    if Configured(env) && (newCount > 0 || ErrorKind(error) != marker) then
      Deliver(env, marker, newCount, postings, error)
    else
      Outcome(NoMail, marker)
  }

  /** The defect: configured, nothing new, no error and no marker file, the code as written crashes in `os.remove`. */
  lemma NotifyRemovesMissingMarker(env: MailEnv, postings: seq<Posting>)
    requires Configured(env)
    ensures Notify(env, None, 0, postings, None) == Outcome(RemoveFailed, None)
    ensures NotifyIntended(env, None, 0, postings, None) == Outcome(NoMail, None)
  {
  }

  /**
   * The other input on which the two versions differ: a marker holding
   * `NoneType`, which no call writes since only a present error is recorded.
   * As written that marker matches "no error"; the intended version treats it
   * as a stale error and reports it fixed.
   */
  lemma NoneTypeMarkerDiffers(env: MailEnv, postings: seq<Posting>)
    requires Configured(env)
    ensures Notify(env, Some("NoneType"), 0, postings, None) == Outcome(NoMail, Some("NoneType"))
    ensures NotifyIntended(env, Some("NoneType"), 0, postings, None).notice.Sent?
    ensures NotifyIntended(env, Some("NoneType"), 0, postings, None).notice.mail.kind == FixedMail
    ensures NotifyIntended(env, Some("NoneType"), 0, postings, None).marker == None
  {
  }

  /** At the one call site (new items, no error) the two versions agree. */
  lemma NotifyAgreesOnNewItems(env: MailEnv, marker: Option<string>, newCount: int, postings: seq<Posting>)
    requires newCount > 0
    ensures Notify(env, marker, newCount, postings, None) == NotifyIntended(env, marker, newCount, postings, None)
  {
  }

  /**
   * Repeated errors are reported once: the first error of a kind is mailed
   * and recorded, the same kind again is silent, and a clean run afterwards
   * mails "Error fixed" and clears the marker.
   */
  lemma ErrorReportedOnce(env: MailEnv, postings: seq<Posting>, e: Failure)
    requires Configured(env)
    requires e.className != KindName(None)
    ensures Notify(env, None, 0, postings, Some(e)).marker == Some(e.className)
    ensures Notify(env, None, 0, postings, Some(e)).notice.Sent?
    ensures Notify(env, None, 0, postings, Some(e)).notice.mail.kind == ErrorMail
    ensures Notify(env, Some(e.className), 0, postings, Some(e)) == Outcome(NoMail, Some(e.className))
    ensures Notify(env, Some(e.className), 0, postings, None).notice.Sent?
    ensures Notify(env, Some(e.className), 0, postings, None).notice.mail.kind == FixedMail
    ensures Notify(env, Some(e.className), 0, postings, None).marker == None
  {
  }

  /** The new-items mail lists every posting's summary with its direct URL. */
  lemma ItemsBodyListsEach(postings: seq<Posting>)
    ensures forall i :: 0 <= i < |postings| ==> Text.Contains(ItemsBody(postings), Line(postings[i]))
  {
    var lines := seq(|postings|, i requires 0 <= i < |postings| => Line(postings[i]));
    Text.JoinContainsEach(lines, " \n");
    assert forall i :: 0 <= i < |postings| ==> lines[i] == Line(postings[i]);
  }
}

=== FILE: postings.dfy ===
/** A clearance posting as `fundgrube.py` builds it from the listing API (class `Posting`). */
module Postings {
  import opened Wrappers
  import Text
  import Urls

  /**
   * One entry of the API's `postings` list, already decoded. Scalar fields are
   * kept as the text Python's `str()` gives them; `outlet` is `None` for a
   * JSON `null`, otherwise the outlet object's fields.
   */
  datatype RawPosting = RawPosting(
    postingId: string,
    pimId: string,
    name: string,
    originalUrl: string,
    postingText: string,
    price: string,
    shippingCost: string,
    discountInPercent: string,
    outlet: Option<map<string, string>>)

  /** A posting tagged with the endpoint it was fetched from. */
  datatype Posting = Posting(
    baseUrl: string,
    postingId: string,
    pimId: string,
    name: string,
    originalUrl: string,
    postingText: string,
    price: string,
    shippingCost: string,
    discountInPercent: string,
    outletId: Option<string>)

  /**
   * `Posting(**post, base_url=base_url)`. The outlet id is taken only from a
   * truthy (non-null, non-empty) outlet object, and is `None` when that object
   * has no `id` field.
   */
  function MakePosting(raw: RawPosting, baseUrl: string): (p: Posting)
    ensures p.baseUrl == baseUrl && p.postingId == raw.postingId && p.pimId == raw.pimId
    ensures p.name == raw.name && p.price == raw.price
    ensures p.originalUrl == raw.originalUrl && p.postingText == raw.postingText
    ensures p.shippingCost == raw.shippingCost && p.discountInPercent == raw.discountInPercent
    ensures p.outletId.Some? <==> raw.outlet.Some? && "id" in raw.outlet.value
    ensures p.outletId.Some? ==> p.outletId.value == raw.outlet.value["id"]
  {
    var outletId :=
      if raw.outlet.Some? && raw.outlet.value != map[] then
        (if "id" in raw.outlet.value then Some(raw.outlet.value["id"]) else None)
      else None;
    Posting(baseUrl, raw.postingId, raw.pimId, raw.name, raw.originalUrl, raw.postingText,
            raw.price, raw.shippingCost, raw.discountInPercent, outletId)
  }

  /** How an f-string renders `outlet_id`: the id, or `None`. */
  function OutletText(p: Posting): string {
    match p.outletId
    case Some(id) => id
    case None => "None"
  }

  /** `Posting.get_direct_url`. */
  function DirectUrl(p: Posting): string {
    p.baseUrl + "?outletIds=" + OutletText(p) + "&text=" + p.pimId
  }

  /** `Posting.__str__`: name, price, shipping cost after a package emoji, discount. */
  function Summary(p: Posting): (s: string)
    ensures |s| == |p.name| + |p.price| + |p.shippingCost| + |p.discountInPercent| + 13
    ensures Text.OccursAt(s, p.name, 0)
    ensures Text.OccursAt(s, " - ", |p.name|)
    ensures Text.OccursAt(s, p.price, |p.name| + 3)
    ensures Text.OccursAt(s, " (\U{1F4E6} ", |p.name| + |p.price| + 3)
    ensures Text.OccursAt(s, p.shippingCost, |p.name| + |p.price| + 7)
    ensures Text.OccursAt(s, ") (", |p.name| + |p.price| + |p.shippingCost| + 7)
    ensures Text.OccursAt(s, p.discountInPercent, |s| - |p.discountInPercent| - 3)
    ensures s[|s| - 3..] == " %)"
  {
    p.name + " - " + p.price + " (\U{1F4E6} " + p.shippingCost + ") (" + p.discountInPercent + " %)"
  }

  /**
   * The direct URL points at the posting's endpoint, filtered to its outlet
   * and its product: read back, its path is the endpoint and its `outletIds`
   * and `text` parameters are the outlet id and the product id.
   */
  lemma DirectUrlParams(p: Posting)
    requires '?' !in p.baseUrl
    requires '&' !in OutletText(p) && '&' !in p.pimId
    ensures Urls.Path(DirectUrl(p)) == p.baseUrl
    ensures Urls.Param(DirectUrl(p), "outletIds") == Some(OutletText(p))
    ensures Urls.Param(DirectUrl(p), "text") == Some(p.pimId)
  {
    var keys := ["outletIds", "text"];
    var values := [OutletText(p), p.pimId];
    var pairs := Urls.Pairs(keys, values);
    assert Text.Join(pairs, "&") == pairs[0] + "&" + pairs[1];
    assert DirectUrl(p) == p.baseUrl + "?" + Text.Join(pairs, "&");
    Urls.ParamOfJoin(p.baseUrl, keys, values, 0);
    Urls.ParamOfJoin(p.baseUrl, keys, values, 1);
  }
}

=== FILE: quoting.dfy ===
/**
 * `urllib.parse.quote(s, safe='')`: the text is encoded as UTF-8 and every
 * byte outside the unreserved set of RFC 3986 (section 2.3: letters, digits,
 * `-`, `.`, `_`, `~`) is written as `%` followed by two upper-case hex digits
 * (section 2.1). `Unquote` is the inverse used to state the round trip.
 */
module Quoting {
  import opened Wrappers

  type Byte = b: int | 0 <= b < 256

  // ---------------------------------------------------------------------
  // UTF-8 (RFC 3629)
  // ---------------------------------------------------------------------

  predicate IsContinuation(b: Byte) {
    0x80 <= b < 0xC0
  }

  /** The UTF-8 bytes of one Unicode scalar value. */
  function EncodeChar(c: char): (bs: seq<Byte>)
    ensures 1 <= |bs| <= 4
    ensures (|bs| == 1) <==> (c as int) < 0x80
    ensures forall i :: 1 <= i < |bs| ==> IsContinuation(bs[i])
  {
    var cp := c as int;
    if cp < 0x80 then [cp]
    else if cp < 0x800 then [0xC0 + cp / 64, 0x80 + cp % 64]
    else if cp < 0x1_0000 then [0xE0 + cp / 4096, 0x80 + (cp / 64) % 64, 0x80 + cp % 64]
    else [0xF0 + cp / 262144, 0x80 + (cp / 4096) % 64, 0x80 + (cp / 64) % 64, 0x80 + cp % 64]
  }

  /** `s.encode('utf-8')`. */
  function Utf8Encode(s: string): seq<Byte>
    decreases |s|
  {
    if |s| == 0 then [] else EncodeChar(s[0]) + Utf8Encode(s[1..])
  }

  predicate IsScalarValue(cp: int) {
    0 <= cp < 0xD800 || 0xE000 <= cp < 0x11_0000
  }

  /** Reads one well-formed (shortest-form, non-surrogate) UTF-8 sequence off the front of `bs`. */
  function DecodeChar(bs: seq<Byte>): (r: Option<(char, nat)>)
    requires |bs| > 0
    ensures r.Some? ==> 1 <= r.value.1 <= |bs|
  {
    var b0: int := bs[0];
    if b0 < 0x80 then Some((b0 as char, 1))
    else if 0xC2 <= b0 < 0xE0 && |bs| >= 2 && IsContinuation(bs[1]) then
      var b1: int := bs[1];
      Some((((b0 - 0xC0) * 64 + (b1 - 0x80)) as char, 2))
    else if 0xE0 <= b0 < 0xF0 && |bs| >= 3 && IsContinuation(bs[1]) && IsContinuation(bs[2]) then
      var b1: int, b2: int := bs[1], bs[2];
      var cp := (b0 - 0xE0) * 4096 + (b1 - 0x80) * 64 + (b2 - 0x80);
      if 0x800 <= cp && IsScalarValue(cp) then Some((cp as char, 3)) else None
    else if 0xF0 <= b0 < 0xF5 && |bs| >= 4 && IsContinuation(bs[1]) && IsContinuation(bs[2]) && IsContinuation(bs[3]) then
      var b1: int, b2: int, b3: int := bs[1], bs[2], bs[3];
      var cp := (b0 - 0xF0) * 262144 + (b1 - 0x80) * 4096 + (b2 - 0x80) * 64 + (b3 - 0x80);
      if 0x1_0000 <= cp < 0x11_0000 then Some((cp as char, 4)) else None
    else None
  }

  /** `bs.decode('utf-8')` for well-formed input; `None` otherwise. */
  function Utf8Decode(bs: seq<Byte>): Option<string>
    decreases |bs|
  {
    if |bs| == 0 then Some("")
    else match DecodeChar(bs)
      case None => None
      case Some((c, n)) =>
        match Utf8Decode(bs[n..])
        case None => None
        case Some(rest) => Some([c] + rest)
  }

  lemma Split2(cp: int)
    requires 0x80 <= cp < 0x800
    ensures 2 <= cp / 64 < 32 && (cp / 64) * 64 + cp % 64 == cp
  {
  }

  lemma Split3(cp: int)
    requires 0x800 <= cp < 0x1_0000
    ensures cp / 4096 < 16 && (cp / 4096) * 4096 + ((cp / 64) % 64) * 64 + cp % 64 == cp
  {
  }

  lemma Split4(cp: int)
    requires 0x1_0000 <= cp < 0x11_0000
    ensures cp / 262144 < 5
    ensures (cp / 262144) * 262144 + ((cp / 4096) % 64) * 4096 + ((cp / 64) % 64) * 64 + cp % 64 == cp
  {
  }

  lemma DecodeEncodedChar(c: char, rest: seq<Byte>)
    ensures DecodeChar(EncodeChar(c) + rest) == Some((c, |EncodeChar(c)|))
  {
    var cp := c as int;
    var bs := EncodeChar(c) + rest;
    if cp < 0x80 {
      assert bs[0] == cp;
    } else if cp < 0x800 {
      Split2(cp);
      DecodeTwo(bs, cp / 64, cp % 64);
    } else if cp < 0x1_0000 {
      Split3(cp);
      DecodeThree(bs, cp / 4096, (cp / 64) % 64, cp % 64);
    } else {
      Split4(cp);
      DecodeFour(bs, cp / 262144, (cp / 4096) % 64, (cp / 64) % 64, cp % 64);
    }
  }

  lemma DecodeTwo(bs: seq<Byte>, hi: int, lo: int)
    requires 2 <= hi < 32 && 0 <= lo < 64 && |bs| >= 2
    requires bs[0] == 0xC0 + hi && bs[1] == 0x80 + lo
    ensures DecodeChar(bs) == Some(((hi * 64 + lo) as char, 2))
  {
  }

  lemma DecodeThree(bs: seq<Byte>, hi: int, mid: int, lo: int)
    requires 0 <= hi < 16 && 0 <= mid < 64 && 0 <= lo < 64 && |bs| >= 3
    requires IsScalarValue(hi * 4096 + mid * 64 + lo) && 0x800 <= hi * 4096 + mid * 64 + lo
    requires bs[0] == 0xE0 + hi && bs[1] == 0x80 + mid && bs[2] == 0x80 + lo
    ensures DecodeChar(bs) == Some(((hi * 4096 + mid * 64 + lo) as char, 3))
  {
  }

  lemma DecodeFour(bs: seq<Byte>, top: int, hi: int, mid: int, lo: int)
    requires 0 <= top < 5 && 0 <= hi < 64 && 0 <= mid < 64 && 0 <= lo < 64 && |bs| >= 4
    requires 0x1_0000 <= top * 262144 + hi * 4096 + mid * 64 + lo < 0x11_0000
    requires bs[0] == 0xF0 + top && bs[1] == 0x80 + hi && bs[2] == 0x80 + mid && bs[3] == 0x80 + lo
    ensures DecodeChar(bs) == Some(((top * 262144 + hi * 4096 + mid * 64 + lo) as char, 4))
  {
  }

  /** Decoding the UTF-8 encoding of a string gives the string back. */
  lemma {:induction false} Utf8RoundTrip(s: string)
    ensures Utf8Decode(Utf8Encode(s)) == Some(s)
    decreases |s|
  {
    if |s| > 0 {
      var head := EncodeChar(s[0]);
      var tail := Utf8Encode(s[1..]);
      DecodeEncodedChar(s[0], tail);
      assert (head + tail)[|head|..] == tail;
      Utf8RoundTrip(s[1..]);
      assert [s[0]] + s[1..] == s;
    }
  }

  // ---------------------------------------------------------------------
  // Percent-encoding (RFC 3986, sections 2.1 and 2.3)
  // ---------------------------------------------------------------------

  /** Characters `quote` never escapes: RFC 3986 unreserved characters. */
  predicate IsUnreserved(c: char) {
    || 'A' <= c <= 'Z'
    || 'a' <= c <= 'z'
    || '0' <= c <= '9'
    || c == '_' || c == '.' || c == '-' || c == '~'
  }

  function HexDigit(d: nat): (c: char)
    requires d < 16
    ensures IsUnreserved(c)
    ensures d < 10 ==> '0' <= c <= '9'
    ensures d >= 10 ==> 'A' <= c <= 'F'
  {
    if d < 10 then (('0' as int) + d) as char else (('A' as int) + d - 10) as char
  }

  /** The value of a hex digit of either case. */
  function HexValue(c: char): Option<nat> {
    if '0' <= c <= '9' then Some((c as int) - ('0' as int))
    else if 'A' <= c <= 'F' then Some((c as int) - ('A' as int) + 10)
    else if 'a' <= c <= 'f' then Some((c as int) - ('a' as int) + 10)
    else None
  }

  lemma HexValueOfDigit(d: nat)
    requires d < 16
    ensures HexValue(HexDigit(d)) == Some(d)
  {
  }

  /** One byte as `quote` writes it. */
  function EncodeByte(b: Byte): (s: string)
    ensures forall i :: 0 <= i < |s| ==> IsUnreserved(s[i]) || s[i] == '%'
  {
    if b < 128 && IsUnreserved(b as char) then [b as char]
    else ['%', HexDigit(b / 16), HexDigit(b % 16)]
  }

  /** Percent-encoding of a byte string with no extra safe characters. */
  function PercentEncode(bs: seq<Byte>): (s: string)
    ensures forall i :: 0 <= i < |s| ==> IsUnreserved(s[i]) || s[i] == '%'
    decreases |bs|
  {
    if |bs| == 0 then "" else EncodeByte(bs[0]) + PercentEncode(bs[1..])
  }

  /** Strict percent-decoding: `%` must be followed by two hex digits, other characters must be ASCII. */
  function PercentDecode(s: string): Option<seq<Byte>>
    decreases |s|
  {
    if |s| == 0 then Some([])
    else if s[0] == '%' then
      if |s| >= 3 && HexValue(s[1]).Some? && HexValue(s[2]).Some? then
        match PercentDecode(s[3..])
        case None => None
        case Some(rest) => Some([HexValue(s[1]).value * 16 + HexValue(s[2]).value] + rest)
      else None
    else if (s[0] as int) < 128 then
      match PercentDecode(s[1..])
      case None => None
      case Some(rest) => Some([s[0] as int] + rest)
    else None
  }

  lemma DecodeEncodedByte(b: Byte, rest: string)
    ensures PercentDecode(EncodeByte(b) + rest) ==
      match PercentDecode(rest)
      case None => None
      case Some(tail) => Some([b] + tail)
  {
    var s := EncodeByte(b) + rest;
    if b < 128 && IsUnreserved(b as char) {
      assert s[1..] == rest;
    } else {
      HexValueOfDigit(b / 16);
      HexValueOfDigit(b % 16);
      assert s[3..] == rest;
    }
  }

  /** Percent-decoding undoes percent-encoding. */
  lemma {:induction false} PercentRoundTrip(bs: seq<Byte>)
    ensures PercentDecode(PercentEncode(bs)) == Some(bs)
    decreases |bs|
  {
    if |bs| > 0 {
      DecodeEncodedByte(bs[0], PercentEncode(bs[1..]));
      PercentRoundTrip(bs[1..]);
      assert [bs[0]] + bs[1..] == bs;
    }
  }

  /** `quote(s, safe='')`. */
  function Quote(s: string): (q: string)
    ensures forall i :: 0 <= i < |q| ==> IsUnreserved(q[i]) || q[i] == '%'
  {
    PercentEncode(Utf8Encode(s))
  }

  /** `unquote` restricted to well-formed input: percent-decoding, then UTF-8 decoding. */
  function Unquote(q: string): Option<string> {
    match PercentDecode(q)
    case None => None
    case Some(bs) => Utf8Decode(bs)
  }

  /** The query-string value written by `quote` reads back as the original text. */
  lemma QuoteRoundTrip(s: string)
    ensures Unquote(Quote(s)) == Some(s)
  {
    PercentRoundTrip(Utf8Encode(s));
    Utf8RoundTrip(s);
  }

  /** Text made only of unreserved characters is left as it is. */
  lemma {:induction false} QuoteKeepsUnreserved(s: string)
    requires forall i :: 0 <= i < |s| ==> IsUnreserved(s[i])
    ensures Quote(s) == s
    decreases |s|
  {
    if |s| > 0 {
      QuoteKeepsUnreserved(s[1..]);
      assert Utf8Encode(s) == [s[0] as int] + Utf8Encode(s[1..]);
      assert Utf8Encode(s)[1..] == Utf8Encode(s[1..]);
      assert [s[0]] + s[1..] == s;
    }
  }

  /** No quoted text can contain a query-string delimiter. */
  lemma QuoteHasNoDelimiters(s: string)
    ensures '&' !in Quote(s) && '=' !in Quote(s) && '?' !in Quote(s) && '#' !in Quote(s)
  {
    var q := Quote(s);
    assert forall i :: 0 <= i < |q| ==> q[i] != '&' && q[i] != '=' && q[i] != '?' && q[i] != '#';
  }
}

=== FILE: runs.dfy ===
/**
 * One run of the main program: load the filters and the results file,
 * query both endpoints for every filter, and when anything is new, append
 * it to the results file and mail it.
 */
module Runs {
  import opened Wrappers
  import opened Postings
  import opened Filters
  import opened History
  import opened Classifier
  import opened Notifier
  import Decimal

  /** What persists between runs: the results file and the error marker file. */
  datatype State = State(history: File, marker: Option<string>)

  datatype RunError = ConfigError(filter: FilterError) | StoreError(load: LoadError)

  datatype RunResult =
    | Crashed(error: RunError)
    | Finished(state: State, findings: seq<Posting>, notice: Notice)

  /**
   * The main program. `fetch` is the listing server's answer to each request
   * URL; `now` is the formatted time of the save; `dateOk` stands for
   * `strptime`. The notifier is the corrected one, which agrees with the
   * code as written at this call site (`Notifier.NotifyAgreesOnNewItems`).
   */
  function Run(items: seq<map<string, Scalar>>, fetch: string -> seq<RawPosting>, state: State,
               env: MailEnv, now: string, dateOk: string -> bool): (r: RunResult)
    ensures LoadFilters(items).Err? <==> r.Crashed? && r.error.ConfigError?
    ensures r.Finished? <==> LoadFilters(items).Ok? && LoadFile(state.history, dateOk).Ok?
    ensures r.Finished? ==> r.findings == NewOnly(Fetched(Requests(LoadFilters(items).value), fetch),
                                                  LoadFile(state.history, dateOk).value)
    ensures r.Finished? && r.findings == [] ==> r.state == state && r.notice == NoMail
    ensures r.Finished? && r.findings != [] ==> r.state.history == Save(state.history, r.findings, now)
    ensures r.Finished? ==> r.state.marker == state.marker
    ensures r.Finished? ==> !r.notice.RemoveFailed?
    ensures r.Finished? && r.findings != [] ==>
      Outcome(r.notice, r.state.marker) == Notify(env, state.marker, |r.findings|, r.findings, None)
  {
    match LoadFilters(items)
    case Err(e) => Crashed(ConfigError(e))
    case Ok(filters) =>
      match LoadFile(state.history, dateOk)
      case Err(e) => Crashed(StoreError(e))
      case Ok(known) =>
        var findings := NewOnly(Fetched(Requests(filters), fetch), known);
        if |findings| > 0 then
          NotifyAgreesOnNewItems(env, state.marker, |findings|, findings);
          var out := NotifyIntended(env, state.marker, |findings|, findings, None);
          Finished(State(Save(state.history, findings, now), out.marker), findings, out.notice)
        else
          Finished(state, findings, NoMail)
  }

  /**
   * A run with findings mails them when mail is configured: the new-items
   * mail, counting and listing the findings, to the configured receiver.
   */
  lemma RunMailsFindings(items: seq<map<string, Scalar>>, fetch: string -> seq<RawPosting>, state: State,
                         env: MailEnv, now: string, dateOk: string -> bool)
    requires LoadFilters(items).Ok? && LoadFile(state.history, dateOk).Ok?
    requires Run(items, fetch, state, env, now, dateOk).findings != []
    requires Configured(env)
    ensures var r := Run(items, fetch, state, env, now, dateOk);
      r.notice == Sent(Compose(env, NewItemsMail, Decimal.IntToString(|r.findings|) + " new items", ItemsBody(r.findings)))
  {
  }

  /** Without mail credentials a run sends nothing, whatever it finds. */
  lemma RunWithoutMailIsSilent(items: seq<map<string, Scalar>>, fetch: string -> seq<RawPosting>, state: State,
                               env: MailEnv, now: string, dateOk: string -> bool)
    requires LoadFilters(items).Ok? && LoadFile(state.history, dateOk).Ok?
    requires !Configured(env)
    ensures Run(items, fetch, state, env, now, dateOk).notice == NoMail
  {
  }

  /**
   * After a run, the results file holds the previous history plus every
   * finding's id, recorded at the run's time.
   */
  lemma RunRecordsFindings(items: seq<map<string, Scalar>>, fetch: string -> seq<RawPosting>, state: State,
                           env: MailEnv, now: string, dateOk: string -> bool)
    requires LoadFilters(items).Ok? && LoadFile(state.history, dateOk).Ok?
    requires HasStandardHeader(state.history)
    requires dateOk(now)
    ensures var r := Run(items, fetch, state, env, now, dateOk);
      && HasStandardHeader(r.state.history)
      && LoadFile(r.state.history, dateOk) == Ok(Stamp(LoadFile(state.history, dateOk).value, r.findings, now))
  {
    var r := Run(items, fetch, state, env, now, dateOk);
    if r.findings != [] {
      LoadAfterSave(state.history, r.findings, now, dateOk);
    }
  }

  /**
   * Running again with the same listings finds nothing: every posting seen
   * in the first run is now in the history, so the second run is silent and
   * changes nothing.
   */
  lemma SecondRunFindsNothing(items: seq<map<string, Scalar>>, fetch: string -> seq<RawPosting>, state: State,
                              env: MailEnv, now: string, later: string, dateOk: string -> bool)
    requires LoadFilters(items).Ok? && LoadFile(state.history, dateOk).Ok?
    requires HasStandardHeader(state.history)
    requires dateOk(now)
    ensures var first := Run(items, fetch, state, env, now, dateOk);
      Run(items, fetch, first.state, env, later, dateOk) == Finished(first.state, [], NoMail)
  {
    var first := Run(items, fetch, state, env, now, dateOk);
    var filters := LoadFilters(items).value;
    var fetched := Fetched(Requests(filters), fetch);
    var known := LoadFile(state.history, dateOk).value;
    RunRecordsFindings(items, fetch, state, env, now, dateOk);
    var known' := Stamp(known, first.findings, now);
    forall i | 0 <= i < |fetched|
      ensures fetched[i].postingId in known'
    {
      if fetched[i].postingId !in known {
        NewOnlyComplete(fetched, known, i);
        var j :| 0 <= j < |first.findings| && first.findings[j] == fetched[i];
      }
    }
    NewOnlyAllKnown(fetched, known');
  }
}

=== FILE: text.dfy ===
/** String helpers: Python's `str.join`, and the splitting used to read URLs back. */
module Text {

  /** `sep.join(items)`. */
  function Join(items: seq<string>, sep: string): string
    decreases |items|
  {
    if |items| == 0 then ""
    else if |items| == 1 then items[0]
    else items[0] + sep + Join(items[1..], sep)
  }

  /** Joining one more item appends the separator and the item. */
  lemma {:induction false} JoinSnoc(items: seq<string>, item: string, sep: string)
    requires |items| >= 1
    ensures Join(items + [item], sep) == Join(items, sep) + sep + item
    decreases |items|
  {
    if |items| == 1 {
      assert (items + [item])[1..] == [item];
    } else {
      JoinSnoc(items[1..], item, sep);
      assert (items + [item])[1..] == items[1..] + [item];
    }
  }

  /** `t` occurs in `s` as a contiguous substring. */
  ghost predicate Contains(s: string, t: string) {
    exists k :: 0 <= k && OccursAt(s, t, k)
  }

  /** `t` occurs in `s` starting at position `k`. */
  ghost predicate OccursAt(s: string, t: string, k: nat) {
    k + |t| <= |s| && s[k..k + |t|] == t
  }

  lemma ContainsPrefix(t: string, rest: string)
    ensures Contains(t + rest, t)
  {
    assert OccursAt(t + rest, t, 0);
  }

  lemma ContainsInSuffix(s: string, t: string, front: string)
    requires Contains(s, t)
    ensures Contains(front + s, t)
  {
    var k :| 0 <= k && OccursAt(s, t, k);
    assert (front + s)[|front| + k..|front| + k + |t|] == s[k..k + |t|];
    assert OccursAt(front + s, t, |front| + k);
  }

  /** Every item of a join can be found in it. */
  lemma {:induction false} JoinContainsEach(items: seq<string>, sep: string)
    ensures forall i :: 0 <= i < |items| ==> Contains(Join(items, sep), items[i])
    decreases |items|
  {
    if |items| == 1 {
      ContainsPrefix(items[0], "");
      assert items[0] + "" == items[0];
    } else if |items| > 1 {
      var rest := Join(items[1..], sep);
      JoinContainsEach(items[1..], sep);
      assert Join(items, sep) == items[0] + (sep + rest);
      ContainsPrefix(items[0], sep + rest);
      forall i | 1 <= i < |items|
        ensures Contains(Join(items, sep), items[i])
      {
        assert items[i] == items[1..][i - 1];
        ContainsInSuffix(rest, items[i], items[0] + sep);
        assert Join(items, sep) == (items[0] + sep) + rest;
      }
    }
  }

  /** Position of the first `c` in `s`, or `|s|` when there is none. */
  function IndexOf(s: string, c: char): (i: nat)
    ensures i <= |s|
    ensures i < |s| ==> s[i] == c
    ensures forall j :: 0 <= j < i ==> s[j] != c
    decreases |s|
  {
    if |s| == 0 then 0
    else if s[0] == c then 0
    else 1 + IndexOf(s[1..], c)
  }

  /** The part of `s` before the first `c` (all of `s` when there is none). */
  function Before(s: string, c: char): string {
    s[..IndexOf(s, c)]
  }

  /** The part of `s` after the first `c` (empty when there is none). */
  function After(s: string, c: char): string {
    var i := IndexOf(s, c);
    if i < |s| then s[i + 1..] else ""
  }

  lemma BeforeAfterSplit(a: string, c: char, b: string)
    requires c !in a
    ensures IndexOf(a + [c] + b, c) == |a|
    ensures Before(a + [c] + b, c) == a
    ensures After(a + [c] + b, c) == b
  {
    var s := a + [c] + b;
    var i := IndexOf(s, c);
    assert forall j :: 0 <= j < |a| ==> s[j] == a[j];
    assert s[|a|] == c;
    assert s[..|a|] == a;
    assert s[|a| + 1..] == b;
  }

  /** Python's `s.split(c)`: the pieces between consecutive `c`s. */
  function Split(s: string, c: char): (parts: seq<string>)
    ensures |parts| >= 1
    ensures forall i :: 0 <= i < |parts| ==> c !in parts[i]
    decreases |s|
  {
    var i := IndexOf(s, c);
    if i == |s| then [s] else [s[..i]] + Split(s[i + 1..], c)
  }

  lemma SplitAbsent(s: string, c: char)
    requires c !in s
    ensures Split(s, c) == [s]
  {
    assert forall j :: 0 <= j < |s| ==> s[j] != c;
  }

  lemma SplitCons(a: string, c: char, b: string)
    requires c !in a
    ensures Split(a + [c] + b, c) == [a] + Split(b, c)
  {
    BeforeAfterSplit(a, c, b);
  }

  /** Splitting a join of separator-free pieces gives the pieces back. */
  lemma {:induction false} SplitJoin(items: seq<string>, c: char)
    requires |items| >= 1
    requires forall i :: 0 <= i < |items| ==> c !in items[i]
    ensures Split(Join(items, [c]), c) == items
    decreases |items|
  {
    if |items| == 1 {
      SplitAbsent(items[0], c);
    } else {
      SplitJoin(items[1..], c);
      assert Join(items, [c]) == items[0] + [c] + Join(items[1..], [c]);
      SplitCons(items[0], c, Join(items[1..], [c]));
      assert [items[0]] + items[1..] == items;
    }
  }
}

=== FILE: urls.dfy ===
/**
 * Reading a URL back into its path and query parameters. The fundgrube URLs
 * are built by string concatenation; these functions are the reader those
 * builders are checked against.
 */
module Urls {
  import opened Wrappers
  import Text

  /** Everything before the first `?`. */
  function Path(url: string): string {
    Text.Before(url, '?')
  }

  /** Everything after the first `?`. */
  function Query(url: string): string {
    Text.After(url, '?')
  }

  /** The value of the first `key=value` piece whose key is `key`. */
  function Lookup(pieces: seq<string>, key: string): (r: Option<string>)
    ensures r.Some? <==> exists i :: 0 <= i < |pieces| && Text.Before(pieces[i], '=') == key
    decreases |pieces|
  {
    if |pieces| == 0 then None
    else if Text.Before(pieces[0], '=') == key then Some(Text.After(pieces[0], '='))
    else
      var r := Lookup(pieces[1..], key);
      assert forall i :: 1 <= i < |pieces| ==> pieces[i] == pieces[1..][i - 1];
      r
  }

  /** The first value given to `key` in the query string of `url`. */
  function Param(url: string, key: string): Option<string> {
    Lookup(Text.Split(Query(url), '&'), key)
  }

  /** A `key=value` query piece. */
  function Pair(key: string, value: string): string {
    key + "=" + value
  }

  lemma PairParts(key: string, value: string)
    requires '=' !in key
    ensures Text.Before(Pair(key, value), '=') == key
    ensures Text.After(Pair(key, value), '=') == value
  {
    Text.BeforeAfterSplit(key, '=', value);
  }

  /**
   * A URL written as `path?k1=v1&k2=v2...` reads back: its path is `path` and
   * each key yields the value of its first occurrence.
   */
  lemma {:induction false} ParamOfJoin(path: string, keys: seq<string>, values: seq<string>, i: nat)
    requires '?' !in path
    requires |keys| == |values| >= 1
    requires forall j :: 0 <= j < |keys| ==> '=' !in keys[j] && '&' !in keys[j] && '&' !in values[j]
    requires i < |keys|
    requires forall j :: 0 <= j < i ==> keys[j] != keys[i]
    ensures Path(path + "?" + Text.Join(Pairs(keys, values), "&")) == path
    ensures Param(path + "?" + Text.Join(Pairs(keys, values), "&"), keys[i]) == Some(values[i])
  {
    var query := Text.Join(Pairs(keys, values), "&");
    Text.BeforeAfterSplit(path, '?', query);
    assert path + "?" + query == path + ['?'] + query;
    PairsFree(keys, values);
    Text.SplitJoin(Pairs(keys, values), '&');
    assert "&" == ['&'];
    LookupPairs(keys, values, i);
  }

  /** The query of such a URL splits into exactly its `key=value` pieces. */
  lemma PiecesOfJoin(path: string, keys: seq<string>, values: seq<string>)
    requires '?' !in path
    requires |keys| == |values| >= 1
    requires forall j :: 0 <= j < |keys| ==> '=' !in keys[j] && '&' !in keys[j] && '&' !in values[j]
    ensures Text.Split(Query(path + "?" + Text.Join(Pairs(keys, values), "&")), '&') == Pairs(keys, values)
  {
    var query := Text.Join(Pairs(keys, values), "&");
    Text.BeforeAfterSplit(path, '?', query);
    assert path + "?" + query == path + ['?'] + query;
    PairsFree(keys, values);
    assert "&" == ['&'];
    Text.SplitJoin(Pairs(keys, values), '&');
  }

  /** A key that no piece carries has no value. */
  lemma ParamOfJoinAbsent(path: string, keys: seq<string>, values: seq<string>, key: string)
    requires '?' !in path
    requires |keys| == |values| >= 1
    requires forall j :: 0 <= j < |keys| ==> '=' !in keys[j] && '&' !in keys[j] && '&' !in values[j]
    requires forall j :: 0 <= j < |keys| ==> keys[j] != key
    ensures Param(path + "?" + Text.Join(Pairs(keys, values), "&"), key) == None
  {
    var query := Text.Join(Pairs(keys, values), "&");
    Text.BeforeAfterSplit(path, '?', query);
    assert path + "?" + query == path + ['?'] + query;
    PairsFree(keys, values);
    Text.SplitJoin(Pairs(keys, values), '&');
    assert "&" == ['&'];
    var ps := Pairs(keys, values);
    forall j | 0 <= j < |ps|
      ensures Text.Before(ps[j], '=') != key
    {
      PairParts(keys[j], values[j]);
    }
  }

  function Pairs(keys: seq<string>, values: seq<string>): (ps: seq<string>)
    requires |keys| == |values|
    ensures |ps| == |keys|
    ensures forall j :: 0 <= j < |ps| ==> ps[j] == Pair(keys[j], values[j])
  {
    seq(|keys|, j requires 0 <= j < |keys| => Pair(keys[j], values[j]))
  }

  lemma PairsFree(keys: seq<string>, values: seq<string>)
    requires |keys| == |values|
    requires forall j :: 0 <= j < |keys| ==> '&' !in keys[j] && '&' !in values[j]
    ensures forall j :: 0 <= j < |keys| ==> '&' !in Pairs(keys, values)[j]
  {
    forall j | 0 <= j < |keys|
      ensures '&' !in Pairs(keys, values)[j]
    {
      assert Pairs(keys, values)[j] == keys[j] + "=" + values[j];
    }
  }

  lemma {:induction false} LookupPairs(keys: seq<string>, values: seq<string>, i: nat)
    requires |keys| == |values|
    requires forall j :: 0 <= j < |keys| ==> '=' !in keys[j]
    requires i < |keys|
    requires forall j :: 0 <= j < i ==> keys[j] != keys[i]
    ensures Lookup(Pairs(keys, values), keys[i]) == Some(values[i])
    decreases i
  {
    var ps := Pairs(keys, values);
    PairParts(keys[0], values[0]);
    if i > 0 {
      LookupPairs(keys[1..], values[1..], i - 1);
      assert Pairs(keys[1..], values[1..]) == ps[1..];
    } else {
      PairParts(keys[i], values[i]);
    }
  }
}

=== FILE: wrappers.dfy ===
/** `Option` and `Result`, used across the model. */
module Wrappers {

  /** An optional value; Python's `None` is `None` here. */
  datatype Option<+T> = None | Some(value: T) {

    /** The wrapped value, or `default` when there is none. */
    function GetOr(default: T): T {
      match this
      case Some(v) => v
      case None => default
    }
  }

  /** A value or the error that stopped its computation (a raised exception). */
  datatype Result<+T, +E> = Ok(value: T) | Err(error: E)
}
